=== FILE: README.md ===
# weather_MCP: a Dafny model of its tool logic

The repository holds two MCP servers. This project models the pure logic inside them.

**The WeChat article server** (`wechat_mcp_streamable.py`) has one tool, `parse_wechat_article`. It fetches a public-account article, extracts the article's fields and sends the body with a prompt to a chat-completion endpoint. The model covers:

- the ordered fallback selector `_first_text`;
- field extraction `_parse_wechat_html`, over an abstract document: the results of the meta-tag and element lookups;
- per-request API key resolution `_extract_api_key`: a bearer prefix, the environment fallback and the two failures;
- the chat request and the choice of the completion text (`_run_openai`);
- the fail-fast dispatcher `call_tool`, with `list_tools`.

The HTTP fetch, the HTML parser and the inference endpoint are oracle parameters. Each invocation returns its outcome together with the trace of steps it attempted, so "this step never ran" can be stated.

**The weather server** (`weather.py`) has two tools. The model covers:

- the pydantic input models and their validators;
- the WMO weather-code table and the UV-index bands;
- error-message classification `_handle_api_error`;
- the date-index logic of both formatters;
- the next-weekday arithmetic of `weather_query_by_weekday`.

Modules:

| module | file | models |
|---|---|---|
| `Wrappers` | wrappers.dfy | `Option` and `Result` |
| `Text` | text.dfy | `str.strip` (the `str.isspace` set), pydantic's trimming (Rust `str::trim`, the Unicode `White_Space` set), ASCII `lower`, `startswith`, `join`, `str(int)` and a reader of its output (not Python's `int`) |
| `Article` | article.dfy | `_first_text`, `_parse_wechat_html` |
| `Credentials` | credentials.dfy | `_extract_api_key` |
| `Inference` | inference.dfy | `_run_openai`, `_parse_with_openai` |
| `Dispatcher` | dispatcher.dfy | `list_tools`, `_fetch_html`, `call_tool` |
| `Weekday` | weekday.dfy | weekday lookup and `days_until_target` |
| `WeatherInputs` | weather_inputs.dfy | `WeatherQueryInput`, `WeekdayQueryInput` |
| `WeatherCodes` | weather_codes.dfy | `_get_weather_description`, `_get_uv_description` |
| `WeatherErrors` | weather_errors.dfy | `_handle_api_error` |
| `WeatherFormat` | weather_format.dfy | `_format_weather_json`, `_format_weather_markdown` |

The model follows the code on four points where its behaviour is easy to misread:

- `_first_text` tests truthiness before stripping. A metadata value made only of whitespace is therefore chosen over the page element, and the field comes out empty (`Article.BlankMetaHidesElement`).
- `_fetch_html` rejects every status other than 200, including other 2xx codes.
- The environment key is returned as it is, without stripping. Only a header value is stripped.
- Pydantic trims string fields with the Unicode `White_Space` set, not the `str.isspace` set that the validators' `strip()` uses. A trailing U+001C..U+001F therefore counts toward a field's length even though `strip()` would remove it (`WeatherInputs.SeparatorCountsTowardCityLength`, `WeatherInputs.PaddedWeekdayIsTooLong`).

## Model

| member | source | states |
|---|---|---|
| Article.FirstText | wechat_mcp_streamable.py:61-65 | the selected text never has whitespace at either end |
| Article.FirstTextPicksFirstTruthy | wechat_mcp_streamable.py:61-64 | the first non-empty argument decides the result, stripped, whatever comes before it that is empty or None |
| Article.FirstTextNoneTruthy | wechat_mcp_streamable.py:65 | when every argument is None or empty the result is "" |
| Article.FirstTextIgnoresLater | wechat_mcp_streamable.py:62-64 | once an argument is non-empty, appending further arguments cannot change the result |
| Article.StrippedPieces | wechat_mcp_streamable.py:82 | the text pieces `get_text(strip=True)` keeps are non-empty, trimmed and no more than the node's strings |
| Article.StrippedPiecesSingle | wechat_mcp_streamable.py:82 | one string gives its stripped form as the only piece, or no piece when it is whitespace only |
| Article.StrippedPiecesAppend | wechat_mcp_streamable.py:96 | the pieces of two consecutive runs of strings are the pieces of the first run followed by those of the second; with the single-string lemma this determines every result |
| Article.StrippedPiecesEmpty | wechat_mcp_streamable.py:96 | nothing is kept exactly when every string of the node is whitespace |
| Article.GetTextTrimmed | wechat_mcp_streamable.py:82-96 | node text has no whitespace at its ends and is empty exactly when the node holds only whitespace |
| Article.GetText | wechat_mcp_streamable.py:96 | a node with no strings has empty text, and a node with one string has that string stripped |
| Article.GetTextAppend | wechat_mcp_streamable.py:96 | the text of consecutive runs of strings is the text of each run, with one separator between them when both have text |
| Article.ExtractField | wechat_mcp_streamable.py:80-93 | a header field is the stripped metadata content when that is non-empty, else the element's text, else "" |
| Article.HeaderFieldsFollowPolicy | wechat_mcp_streamable.py:80-93 | the title, author and publish time of the parsed article each follow that metadata-then-element order |
| Article.ParseArticle | wechat_mcp_streamable.py:95-104 | parsing never fails; `content_length` equals the length of `content`; with no `#js_content` the content is "" and its length 0, otherwise the node's text joined by newlines |
| Article.OnlyTitleMeta | wechat_mcp_streamable.py:77-104 | a page whose only meta tag is an `og:title` with a non-empty value parses to that value, stripped, as its title, with every other field empty |
| Article.BlankMetaHidesElement | wechat_mcp_streamable.py:61-83 | a whitespace-only `og:title` wins over `#activity-name` and yields an empty title |
| Credentials.ExtractApiKey | wechat_mcp_streamable.py:107-122 | no request context fails; with no header or an empty one the environment key is returned when it is non-empty, and the call fails otherwise; a non-empty header is returned stripped, after removing a case-insensitive "bearer " prefix; failure happens only in those two cases |
| Credentials.BearerRoundTrip | wechat_mcp_streamable.py:120-121 | any capitalisation of "bearer " followed by a trimmed key resolves to exactly that key, whatever the environment holds |
| Credentials.PlainHeaderKept | wechat_mcp_streamable.py:122 | a trimmed header without the marker is the key itself |
| Credentials.HeaderShadowsEnvironment | wechat_mcp_streamable.py:113-117 | with a non-empty header the environment key never affects the result |
| Credentials.BearerExample | wechat_mcp_streamable.py:120-121 | "Bearer sk-abc123" resolves to "sk-abc123" |
| Credentials.BareMarkerGivesEmptyKey | wechat_mcp_streamable.py:120-121 | a header of only the marker and blanks gives the empty key, not an error and not the environment key |
| Inference.UserMessage | wechat_mcp_streamable.py:131 | the user message is the prompt, then "\n\n---\n\n", then the body, each at its own offset |
| Inference.UserMessageInjective | wechat_mcp_streamable.py:131 | for a fixed prompt, different bodies give different user messages |
| Inference.UserMessagePromptInjective | wechat_mcp_streamable.py:131 | for a fixed body, different prompts give different user messages |
| Inference.BuildRequest | wechat_mcp_streamable.py:127-141 | the request carries the system message and then the user message, on the configured model, non-streaming, with thinking disabled |
| Inference.FirstChoiceText | wechat_mcp_streamable.py:142-144 | the text is the first choice's message content; it is "" when there are no choices, no message or no content |
| Inference.FirstChoiceOnly | wechat_mcp_streamable.py:142-143 | choices after the first never affect the text |
| Inference.RunInference | wechat_mcp_streamable.py:125-148 | the call succeeds exactly when the endpoint responds, with the first choice's text; an endpoint error becomes the failure |
| Dispatcher.ListTools | wechat_mcp_streamable.py:43-58 | one tool, `parse_wechat_article`, with optional `prompt` and `url` and nothing required |
| Dispatcher.FetchFailedMessageHasStatus | wechat_mcp_streamable.py:72-73 | the status of a failed fetch can be read back from the error message |
| Dispatcher.ErrorMessage | wechat_mcp_streamable.py:73-154 | each failure's exception text: the tool name or the decimal status after its fixed prefix, the two fixed credential messages, and a transport or endpoint error's own text |
| Dispatcher.FetchHtml | wechat_mcp_streamable.py:68-74 | a fetch succeeds exactly on status 200, with the response body; any other status fails carrying that status |
| Dispatcher.ResolveArgument | wechat_mcp_streamable.py:156-157 | an argument is used stripped when it has a non-blank value, and the default is used otherwise |
| Dispatcher.InOrderInference | wechat_mcp_streamable.py:159-162 | in a trace ordered fetch, parse, key, infer, inference ran exactly when all four steps did |
| Dispatcher.AfterFetch | wechat_mcp_streamable.py:160-163 | after a fetch the page is parsed, then the key is resolved; a key failure stops before inference; otherwise inference gets the key and the request built from the prompt and the parsed body |
| Dispatcher.CallTool | wechat_mcp_streamable.py:151-170 | an unknown name fails with no step run, and only an unknown name fails that way; the first step fetches the resolved url; steps run in order; a success ran all four and reports the resolved prompt; a key failure prevents inference |
| Dispatcher.MissingCredentialNoInference | wechat_mcp_streamable.py:107-162 | without a request context, or with neither a non-empty header nor a non-empty environment key, the call fails and the endpoint is never called |
| Dispatcher.FetchFailureStops | wechat_mcp_streamable.py:68-162 | a non-200 response ends the call with that status after the fetch alone |
| Dispatcher.SuccessfulCall | wechat_mcp_streamable.py:151-170 | a successful call fetched with status 200, resolved a key and reports the first choice the endpoint gave for the user message built from the parsed page |
| Dispatcher.ListedToolsAreAccepted | wechat_mcp_streamable.py:43-154 | the dispatcher accepts exactly the names `list_tools` advertises |
| Dispatcher.NoArgumentsUseDefaults | wechat_mcp_streamable.py:156-157 | with no arguments the default url is fetched and a success reports the default prompt |
| Weekday.WeekdayIndex | weather.py:415-416 | a day name has an index exactly when it is one of the seven, and the index points back at it |
| Weekday.DaysUntilTarget | weather.py:422-426 | the offset is in 1..7, it is 7 exactly when today is the target, it lands on the target weekday, and no smaller positive offset does |
| WeatherInputs.CityValidator | weather.py:55-60 | a city is rejected with "City name cannot be empty" exactly when it is blank, and is otherwise returned stripped |
| WeatherInputs.WeekdayValidator | weather.py:87-94 | a weekday is accepted exactly when its stripped, lower-cased form is one of the seven day names; it is returned stripped with its case kept, and a rejection carries the list message |
| WeatherInputs.ConstrainedString | weather.py:32-43 | the field is trimmed of `White_Space` and accepted exactly when the trimmed length is between 1 and the maximum, keeping the trimmed value; a trimmed length of 0 is too short and one above the maximum too long |
| WeatherInputs.CityErrors | weather.py:38-60 | no error exactly when the trimmed city has 1..100 characters and is not blank; a trimmed length out of range gives the length error alone, since `validate_city` then does not run; a blank city within the bounds gives "City name cannot be empty" |
| WeatherInputs.WeekdayErrors | weather.py:76-94 | no error exactly when the trimmed weekday has 1..20 characters and its stripped, lower-cased form is a day name; a trimmed length out of range gives the length error alone; otherwise the day-list message |
| WeatherInputs.ParseWeatherQuery | weather.py:30-60 | the query is built exactly when the trimmed city has 1..100 characters, the city is not blank and `days_later` is in 0..16; the city is stored stripped and the format defaults to markdown; a failure lists exactly the city's errors, followed by the range error when `days_later` is out of range |
| WeatherInputs.ParseWeekdayQuery | weather.py:62-94 | the query is built exactly when the city passes as above and the trimmed weekday has 1..20 characters and names a day; both are stored stripped; a failure lists the city's errors, then the weekday's |
| WeatherInputs.SeparatorCityIsEmpty | weather.py:32-60 | a city made of the separator U+001C survives the trimming, passes the length bound and is refused as empty by `validate_city` |
| WeatherInputs.SeparatorCountsTowardCityLength | weather.py:32-43 | 100 letters followed by U+001F are too long, because the trimming keeps the separator |
| WeatherInputs.PaddedWeekdayPassesValidator | weather.py:87-94 | "monday" followed by fifteen U+001C is accepted by `validate_weekday` alone, because `strip()` removes the separators |
| WeatherInputs.PaddedWeekdayIsTooLong | weather.py:64-80 | the same value is refused by the weekday query, because the trimming keeps the separators and leaves 21 characters |
| WeatherInputs.ValidatedWeekdayHasIndex | weather.py:413-416 | the lookup `weekdays.index(target_weekday.lower())` cannot fail on a validated query |
| WeatherCodes.WeatherDescription | weather.py:238-266 | the 24 listed codes give their table entry; any other code gives the unknown-code message quoting `str(code)`, from which the code can be read back |
| WeatherCodes.KnownDescriptionsAreNotUnknown | weather.py:240-266 | no table entry can be mistaken for the unknown-code message |
| WeatherCodes.WeatherDescriptionInjective | weather.py:238-266 | different codes always get different descriptions |
| WeatherCodes.UvBandOf | weather.py:268-279 | the band is the first whose inclusive limit (2, 5, 7, 10) the index does not exceed, and the top band above 10 |
| WeatherCodes.UvBandMonotone | weather.py:270-279 | a higher UV index never lands in a lower band |
| WeatherCodes.UvLabelInjective | weather.py:270-279 | the five band labels are pairwise different |
| WeatherCodes.UvDescription | weather.py:268-279 | ≤2 gives 低, ≤5 gives 中等, ≤7 gives 高, ≤10 gives 很高, and anything higher gives 极高 |
| WeatherErrors.HandleApiError | weather.py:120-130 | every message starts "Error: "; 404 and 429 get their fixed messages; another status gets the generic message followed by `str(status)`; a timeout gets the timeout message; anything else is "Error: " followed by its text |
| WeatherErrors.StatusMessagesDistinct | weather.py:122-127 | two HTTP errors give the same message only for the same status |
| WeatherFormat.IndexOf | weather.py:217-220 | `dates.index(target_date)` finds the first position holding the date, and fails exactly when the date is absent |
| WeatherFormat.FormatJson | weather.py:210-236 | the error object exactly when the date is missing; otherwise the city, the date, and a weather entry for exactly the keys whose list reaches the date index, each holding that day's value |
| WeatherFormat.JsonWeatherHasDate | weather.py:215-234 | the JSON weather object always echoes the date under `time` |
| WeatherFormat.Item | weather.py:160-200 | `daily[key][i]` succeeds exactly when the key exists and its list reaches `i`, with that entry; a missing key raises `KeyError` for it and a list too short raises `IndexError` |
| WeatherFormat.FormatNumber | weather.py:162-195 | `:.1f`/`:.0f` succeeds exactly on a float or an integer of magnitude below 2^1024 - 2^970; `null` raises `TypeError`, a string `ValueError` (or `TypeError` when the UV comparison comes first), and a larger integer `OverflowError` |
| WeatherFormat.TimeOfDay | weather.py:198-200 | `split('T')[1]` succeeds exactly on a string holding a 'T'; another string raises `IndexError`, and a non-string `AttributeError` |
| WeatherFormat.FormatMarkdown | weather.py:132-208 | the error text exactly when the date is missing; `IndexError` when the weather-code list does not reach the date; a report, when one is produced, is for the requested date and starts with its weather condition |
| WeatherFormat.SectionsSucceed | weather.py:154-202 | the bullets after the condition are produced exactly when every bullet whose first key is present reads, from both of its lists at the date index, a float or an integer that converts to a finite float, and, when both are present, sunrise and sunset read strings holding a 'T' |
| WeatherFormat.MarkdownRaisesExactlyWhenNotRenderable | weather.py:154-202 | for a date that is present, the report is produced exactly when the weather code can be read and every shown bullet can be read and formatted at its index, and Python raises otherwise |
| WeatherFormat.MissingMinimumRaisesKeyError | weather.py:159-161 | a forecast with `temperature_2m_max` but no `temperature_2m_min` raises `KeyError('temperature_2m_min')` |
| WeatherFormat.NullPrecipitationRaisesTypeError | weather.py:171-173 | a `null` precipitation raises `TypeError` at its `:.1f` format |
| WeatherFormat.StringTemperatureRaisesValueError | weather.py:159-162 | a string minimum temperature raises `ValueError` at its `:.1f` format |
| WeatherFormat.StringUvRaisesTypeError | weather.py:192-194 | a string UV index raises `TypeError` in `_get_uv_description`'s comparison with 2 |
| WeatherFormat.SunriseWithoutTimeRaisesIndexError | weather.py:198-199 | a sunrise of "0600" raises `IndexError` at `split('T')[1]` |
| WeatherFormat.NullSunriseRaisesAttributeError | weather.py:198-199 | a `null` sunrise raises `AttributeError`, having no `split` |
| WeatherFormat.HugePrecipitationRaisesOverflowError | weather.py:171-173 | an integer precipitation of 2^1024 - 2^970 raises `OverflowError` at its `:.1f` format |
| WeatherFormat.FormattersAgreeOnMissingDate | weather.py:136-220 | the two formatters reject exactly the same requests for a missing date |
| WeatherFormat.ShowsDayAppend | weather.py:143-202 | bullets showing only day-`i` values stay so when concatenated |
| WeatherFormat.OneValueShowsDay | weather.py:171-195 | a single-value bullet shows the day-`i` entry of its own list |
| WeatherFormat.TwoValuesShowDay | weather.py:159-189 | a paired bullet shows the day-`i` entries of its two lists |
| WeatherFormat.SectionsShowDay | weather.py:153-202 | every value the markdown report shows is the day-`i` entry of the list it came from |
| WeatherFormat.MarkdownAgreesWithJson | weather.py:132-236 | whatever the markdown report shows is also in the JSON report for the same forecast, under the list it came from |
| WeatherFormat.CompleteDayGivesFullReport | weather.py:153-202 | when every requested variable has a value for the date, formattable numbers where the report formats numbers and time stamps for sunrise and sunset, the markdown report has the condition and all eight other bullets |
| Text.Strip | weather.py:58-60 | the stripped string has no whitespace at either end and is no longer than the input |
| Text.StripIsSlice | weather.py:58-60 | the stripped string is a slice of the input with only whitespace removed on either side |
| Text.StripTrimmed | wechat_mcp_streamable.py:121-122 | stripping a string with no outer whitespace leaves it unchanged |
| Text.StripIdempotent | weather.py:30-60 | stripping twice is stripping once, so a value `strip()` returned is left as it is by a second `strip()` |
| Text.StripEmptyIffAllSpace | weather.py:58-59 | the stripped string is empty exactly when the input is all whitespace |
| Text.StripOfPadded | weather.py:58-60 | a string without outer whitespace, padded with whitespace on both sides, strips back to itself |
| Text.StripOfInnerSlice | weather.py:58-60 | cutting whitespace off the ends of a string does not change what `strip()` returns |
| Text.Trim | weather.py:32-34 | pydantic's trimming leaves no `White_Space` at either end and never lengthens the string |
| Text.TrimIsSlice | weather.py:32-34 | the trimmed string is a slice of the input with only `White_Space` removed on either side |
| Text.StripAfterTrim | weather.py:32-60 | the validators' `strip()` after pydantic's trimming is `strip()` alone |
| Text.TrimKeepsBlankness | weather.py:32-60 | trimming never turns a whitespace-only string into one with other characters, nor the other way round |
| Text.Join | wechat_mcp_streamable.py:96 | the joined text starts with the first part and ends with the last |
| Text.JoinSingle | wechat_mcp_streamable.py:96 | one part joins to itself |
| Text.JoinAppend | wechat_mcp_streamable.py:96 | joining two non-empty runs of parts puts exactly one separator between their joins, which with `JoinSingle` determines every join |
| Text.JoinTrimmed | wechat_mcp_streamable.py:96 | joining trimmed non-empty pieces gives a trimmed string |
| Text.Lower | weather.py:91-92 | lower-casing maps each character separately and keeps the length |
| Text.ParseNatToString | weather.py:266 | the decimal rendering of a natural number reads back to it |
| Text.IntToString | weather.py:266 | the rendering is non-empty and starts with '-' exactly for a negative integer |
| Text.ParseInt | weather.py:127 | a text that reads back to an integer starts with '-' exactly when the integer is negative |
| Text.IntToStringRoundTrip | weather.py:127 | the decimal rendering of any integer, with its sign, reads back to it |
| Text.IntToStringInjective | weather.py:266 | different integers render differently |
| Text.NatToStringOfParse | weather.py:266 | canonical digits, with no superfluous leading zero, are the rendering of the number they denote |
| Text.ParseIntCanonical | weather.py:127 | a text that reads back to an integer is exactly that integer's rendering, so a message that reads back to a code quotes `str(code)` |

## Left out

- Network I/O is not modelled. `_fetch_html`, `_get_city_coordinates`, `_fetch_weather_data` and the chat-completion call are replaced by oracle parameters (`Services.fetch`, `Services.infer`) or left out. So are the redirects, the timeouts and the user agent they configure.
- HTML parsing with BeautifulSoup is not modelled. A `Document` holds what the lookups would return. For a meta tag this is its `content` attribute. For an element it is the text strings under it, in document order.
- Running the inference call on a worker thread (`anyio.to_thread`) is not modelled. The Starlette and uvicorn mounting, the session manager and `main` are also left out. All are transport plumbing.
- Loading the default prompt file is not modelled. Its stripped contents are the `Config.defaultPrompt` parameter.
- The pipelines of `weather_query_by_days` and `weather_query_by_weekday` are modelled only in their pure parts: validation, the weekday offset, formatting and error text. The clock (`datetime.now`, `strftime` and date addition) is left out; today's weekday and the target date are parameters.
- The text of the rendering is not modelled: the digits `:.1f` and `:.0f` write, the part of sunrise and sunset after the 'T', and the `json.dumps` text with its key order. The formatters' results hold the selected values instead of the final text. Which values make the rendering raise is modelled: `TypeError` for `null` (and for a string UV index, in its comparison), `ValueError` for a string number, `OverflowError` for an integer too large for `float`, `IndexError` for a sunrise or sunset without 'T', and `AttributeError` for one that is not a string.
- The exact markdown and JSON layout (headings, separators, the data-source line) is not modelled.
- In `WeatherFormat`, only a missing key is modelled for `daily`. A `daily` key holding JSON `null` is not.
- Pydantic's coercion of other input types, `extra='forbid'` and the parsing of the `response_format` string are not modelled. A format arrives already parsed or absent.
- The order in which pydantic reports a length error against a validator error follows its documented behaviour: bounds are checked first, and the field's validator runs only when they hold. Error messages other than the validators' own are represented by the bound they report.
- Text.Lower folds ASCII letters only. Python's `str.lower` folds all of Unicode. For the two places it is used the results agree: comparing against "bearer " and against the lower-case day names. The only non-ASCII characters whose lower case is an ASCII letter are KELVIN SIGN, which becomes 'k' and appears in neither word, and LATIN CAPITAL LETTER I WITH DOT ABOVE, which becomes two characters and so cannot produce a match of the same length.
- Pydantic's `str_strip_whitespace` trims with Rust's `str::trim`, which removes the Unicode `White_Space` characters. Python's `str.strip` removes the `str.isspace` characters. The two sets differ only in U+001C..U+001F, which `isspace` includes and `White_Space` does not. The model keeps the two apart: the length bounds see `Trim`, and the validators see `Strip`.
- WeatherFormat.FormatMarkdown: which error is raised is stated in general only for the weather code. For the other bullets it is stated by the example lemmas `MissingMinimumRaisesKeyError`, `NullPrecipitationRaisesTypeError`, `StringTemperatureRaisesValueError`, `StringUvRaisesTypeError`, `SunriseWithoutTimeRaisesIndexError`, `NullSunriseRaisesAttributeError` and `HugePrecipitationRaisesOverflowError`; `MarkdownRaisesExactlyWhenNotRenderable` says only that some error is raised.
- WeatherFormat.Value: JSON booleans, arrays and objects inside a `daily` list are not modelled, and neither are `NaN` and the infinities.
- WeatherCodes.UvBandOf: the UV index is an unbounded real, so NaN and infinities are not modelled. In Python a NaN falls through every comparison to the top band.
- Inference.BuildRequest: `stop`, `frequency_penalty`, `presence_penalty` and the base URL are fixed constants or left out. The request records the model, the messages, the token limit, the sampling values, streaming and thinking.

=== FILE: article.dfy ===
/** Field extraction from a fetched WeChat article page
    (`_first_text` and `_parse_wechat_html` in wechat_mcp_streamable.py).
    HTML parsing itself is not modelled: a `Document` holds what the HTML
    library's lookups return, and extraction is a total function of it. */
module Article {

  import opened Wrappers
  import opened Text

  /** `_first_text(*values)`: the stripped first truthy value, or "" when
      there is none. Truthiness is tested before stripping. */
  function FirstText(values: seq<Option<string>>): (r: string)
    ensures Trimmed(r)
  {
    if |values| == 0 then ""
    else if Truthy(values[0]) then Strip(values[0].value)
    else FirstText(values[1..])
  }

  /** The first truthy value decides the result, stripped. */
  lemma {:induction false} FirstTextPicksFirstTruthy(values: seq<Option<string>>, i: nat)
    requires i < |values| && Truthy(values[i])
    requires forall j :: 0 <= j < i ==> !Truthy(values[j])
    ensures FirstText(values) == Strip(values[i].value)
  {
    if i > 0 {
      assert values[1..][i - 1] == values[i];
      assert forall j :: 0 <= j < i - 1 ==> values[1..][j] == values[j + 1];
      FirstTextPicksFirstTruthy(values[1..], i - 1);
    }
  }

  /** With no truthy value at all the result is "". */
  lemma {:induction false} FirstTextNoneTruthy(values: seq<Option<string>>)
    requires forall j :: 0 <= j < |values| ==> !Truthy(values[j])
    ensures FirstText(values) == ""
  {
    if |values| > 0 {
      assert forall j :: 0 <= j < |values| - 1 ==> values[1..][j] == values[j + 1];
      FirstTextNoneTruthy(values[1..]);
    }
  }

  /** Once some value is truthy, the values after it are never consulted. */
  lemma {:induction false} FirstTextIgnoresLater(vs: seq<Option<string>>, ws: seq<Option<string>>)
    requires exists i :: 0 <= i < |vs| && Truthy(vs[i])
    ensures FirstText(vs + ws) == FirstText(vs)
  {
    assert (vs + ws)[0] == vs[0];
    if !Truthy(vs[0]) {
      assert (vs + ws)[1..] == vs[1..] + ws;
      var i :| 0 <= i < |vs| && Truthy(vs[i]);
      assert vs[1..][i - 1] == vs[i];
      FirstTextIgnoresLater(vs[1..], ws);
    }
  }

  /** How a `<meta>` tag is looked up: by its `property` or its `name` attribute. */
  datatype MetaSelector = Property(property: string) | Name(name: string)

  /** What the HTML library reports about one page.
      `metas[sel]` is the `content` attribute of the first `<meta>` tag that
      matches `sel` (`None` when that tag has no `content`); a selector with
      no matching tag is not a key. `nodes[id]` is the sequence of text
      strings under the first element with that id, in document order. */
  datatype Document = Document(metas: map<MetaSelector, Option<string>>, nodes: map<string, seq<string>>)

  /** `(soup.find("meta", ...) or {}).get("content")`. */
  function MetaContent(doc: Document, sel: MetaSelector): Option<string> {
    if sel in doc.metas then doc.metas[sel] else None
  }

  /** The non-blank text strings of a node, each stripped, in order. */
  function StrippedPieces(strings: seq<string>): (r: seq<string>)
    ensures |r| <= |strings|
    ensures forall k :: 0 <= k < |r| ==> |r[k]| > 0 && Trimmed(r[k])
  {
    if |strings| == 0 then []
    else
      var s := Strip(strings[0]);
      var rest := StrippedPieces(strings[1..]);
      if |s| == 0 then rest
      else
        assert forall k :: 1 <= k < |rest| + 1 ==> ([s] + rest)[k] == rest[k - 1];
        [s] + rest
  }

  /** A single string contributes its stripped form, unless it is blank. */
  lemma StrippedPiecesSingle(x: string)
    ensures StrippedPieces([x]) == if AllSpace(x) then [] else [Strip(x)]
  {
    StripEmptyIffAllSpace(x);
    assert [x][1..] == [];
  }

  /** One step of `StrippedPieces`: the first string's piece, if any,
      before the pieces of the rest. */
  lemma StrippedPiecesCons(x: string, rest: seq<string>)
    ensures StrippedPieces([x] + rest) == (if |Strip(x)| == 0 then [] else [Strip(x)]) + StrippedPieces(rest)
  {
    assert ([x] + rest)[0] == x;
    assert ([x] + rest)[1..] == rest;
  }

  /** The pieces of consecutive runs of strings are the pieces of each run,
      in order; with `StrippedPiecesSingle` this fixes `StrippedPieces` on
      every input. */
  lemma {:induction false} StrippedPiecesAppend(a: seq<string>, b: seq<string>)
    ensures StrippedPieces(a + b) == StrippedPieces(a) + StrippedPieces(b)
  {
    if |a| > 0 {
      var x := Strip(a[0]);
      var head: seq<string> := if |x| == 0 then [] else [x];
      assert a == [a[0]] + a[1..];
      assert a + b == [a[0]] + (a[1..] + b);
      StrippedPiecesCons(a[0], a[1..]);
      StrippedPiecesCons(a[0], a[1..] + b);
      StrippedPiecesAppend(a[1..], b);
      assert head + (StrippedPieces(a[1..]) + StrippedPieces(b))
          == (head + StrippedPieces(a[1..])) + StrippedPieces(b);
    } else {
      assert a + b == b;
    }
  }

  /** Nothing is left exactly when every string of the node is blank. */
  lemma {:induction false} StrippedPiecesEmpty(strings: seq<string>)
    ensures StrippedPieces(strings) == [] <==> forall k :: 0 <= k < |strings| ==> AllSpace(strings[k])
  {
    if |strings| > 0 {
      StrippedPiecesEmpty(strings[1..]);
      StripEmptyIffAllSpace(strings[0]);
      if StrippedPieces(strings) == [] {
        forall k | 0 <= k < |strings|
          ensures AllSpace(strings[k])
        {
          if k > 0 {
            assert strings[k] == strings[1..][k - 1];
          }
        }
      } else if |Strip(strings[0])| == 0 {
        var k :| 0 <= k < |strings[1..]| && !AllSpace(strings[1..][k]);
        assert strings[k + 1] == strings[1..][k];
      }
    }
  }

  /** `node.get_text(sep, strip=True)`: the stripped non-blank strings of the
      node joined with `sep`. */
  function GetText(strings: seq<string>, sep: string): (r: string)
    ensures |strings| == 0 ==> r == []
    ensures |strings| == 1 ==> r == Strip(strings[0])
  {
    var text := Join(StrippedPieces(strings), sep);
    assert |strings| == 1 ==> text == Strip(strings[0]) by {
      if |strings| == 1 {
        assert strings == [strings[0]];
        StrippedPiecesSingle(strings[0]);
        StripEmptyIffAllSpace(strings[0]);
      }
    }
    text
  }

  /** The text of two consecutive runs of strings is the text of each run,
      with one separator between them when both have text. */
  lemma GetTextAppend(a: seq<string>, b: seq<string>, sep: string)
    ensures var ta, tb := GetText(a, sep), GetText(b, sep);
            GetText(a + b, sep) == if ta == [] then tb else if tb == [] then ta else ta + sep + tb
  {
    var pa, pb := StrippedPieces(a), StrippedPieces(b);
    StrippedPiecesAppend(a, b);
    JoinTrimmed(pa, sep);
    JoinTrimmed(pb, sep);
    if pa == [] {
      assert pa + pb == pb;
    } else if pb == [] {
      assert pa + pb == pa;
    } else {
      JoinAppend(pa, pb, sep);
    }
  }

  /** Node text never has whitespace at its ends, and it is empty exactly
      when the node holds only whitespace. */
  lemma GetTextTrimmed(strings: seq<string>, sep: string)
    ensures Trimmed(GetText(strings, sep))
    ensures GetText(strings, sep) == [] <==> forall k :: 0 <= k < |strings| ==> AllSpace(strings[k])
  {
    JoinTrimmed(StrippedPieces(strings), sep);
    StrippedPiecesEmpty(strings);
  }

  /** `node.get_text(strip=True) if node else None` for the element with id `id`. */
  function NodeText(doc: Document, id: string): Option<string> {
    if id in doc.nodes then Some(GetText(doc.nodes[id], "")) else None
  }

  /** The three header fields, each with a metadata source and a page element. */
  datatype Field = Title | Author | PublishTime

  function MetaSource(f: Field): MetaSelector {
    match f
    case Title => Property("og:title")
    case Author => Name("author")
    case PublishTime => Property("article:published_time")
  }

  function NodeSource(f: Field): string {
    match f
    case Title => "activity-name"
    case Author => "js_author_name"
    case PublishTime => "publish_time"
  }

  /** The element whose text is the article body (`#js_content`). */
  const ContentNode: string := "js_content"

  /** One header field: the metadata content when it is non-empty, otherwise
      the page element's text, otherwise "". */
  function ExtractField(doc: Document, f: Field): (r: string)
    ensures Trimmed(r)
    ensures Truthy(MetaContent(doc, MetaSource(f))) ==> r == Strip(MetaContent(doc, MetaSource(f)).value)
    ensures !Truthy(MetaContent(doc, MetaSource(f))) && NodeSource(f) in doc.nodes
            ==> r == GetText(doc.nodes[NodeSource(f)], "")
    ensures !Truthy(MetaContent(doc, MetaSource(f))) && NodeSource(f) !in doc.nodes ==> r == ""
  {
    var meta := MetaContent(doc, MetaSource(f));
    var node := NodeText(doc, NodeSource(f));
    var r := FirstText([meta, node]);
    assert [meta, node][1..] == [node];
    assert [node][1..] == [];
    assert !Truthy(meta) && node.Some? ==> r == node.value by {
      if !Truthy(meta) && node.Some? {
        GetTextTrimmed(doc.nodes[NodeSource(f)], "");
        StripTrimmed(node.value);
        assert r == FirstText([node]);
        if |node.value| > 0 {
          assert FirstText([node]) == Strip(node.value);
        } else {
          assert FirstText([node]) == FirstText([]);
        }
      }
    }
    assert !Truthy(meta) && node.None? ==> r == "" by {
      if !Truthy(meta) && node.None? {
        assert r == FirstText([node]) == FirstText([]);
      }
    }
    r
  }

  datatype ParsedArticle = ParsedArticle(
    title: string,
    author: string,
    publishTime: string,
    content: string,
    contentLength: int)

  /** The invariant every extracted article keeps. */
  predicate Consistent(a: ParsedArticle) {
    a.contentLength == |a.content|
  }

  /** `_parse_wechat_html`: never fails; a missing body element gives empty
      content of length 0. */
  function ParseArticle(doc: Document): (a: ParsedArticle)
    ensures Consistent(a)
    ensures ContentNode !in doc.nodes ==> a.content == [] && a.contentLength == 0
    ensures ContentNode in doc.nodes ==> a.content == GetText(doc.nodes[ContentNode], "\n")
    ensures Trimmed(a.content)
  {
    var content := if ContentNode in doc.nodes then GetText(doc.nodes[ContentNode], "\n") else "";
    assert Trimmed(content) by {
      if ContentNode in doc.nodes {
        GetTextTrimmed(doc.nodes[ContentNode], "\n");
      }
    }
    ParsedArticle(
      ExtractField(doc, Title),
      ExtractField(doc, Author),
      ExtractField(doc, PublishTime),
      content,
      |content|)
  }

  /** The header field `f` of a parsed article. */
  function FieldOf(a: ParsedArticle, f: Field): string {
    match f
    case Title => a.title
    case Author => a.author
    case PublishTime => a.publishTime
  }

  /** Each header field of the parsed article follows the metadata-then-element
      order: a non-empty metadata value (stripped) wins, else the element's
      text, else "". */
  lemma HeaderFieldsFollowPolicy(doc: Document, f: Field)
    ensures var meta := MetaContent(doc, MetaSource(f));
            var r := FieldOf(ParseArticle(doc), f);
            && Trimmed(r)
            && (Truthy(meta) ==> r == Strip(meta.value))
            && (!Truthy(meta) && NodeSource(f) in doc.nodes ==> r == GetText(doc.nodes[NodeSource(f)], ""))
            && (!Truthy(meta) && NodeSource(f) !in doc.nodes ==> r == "")
  {
    assert FieldOf(ParseArticle(doc), f) == ExtractField(doc, f);
  }

  /** A page holding only an `og:title` meta tag with a non-empty value
      parses to that value, stripped, as its title and every other field
      empty. */
  lemma OnlyTitleMeta(doc: Document, t: string)
    requires doc.metas == map[Property("og:title") := Some(t)] && doc.nodes == map[]
    requires |t| > 0
    ensures ParseArticle(doc) == ParsedArticle(Strip(t), "", "", "", 0)
  {
    var a := ParseArticle(doc);
    assert a.title == Strip(t) by {
      assert MetaContent(doc, MetaSource(Title)) == Some(t);
    }
    assert a.author == "" by {
      assert MetaContent(doc, MetaSource(Author)) == None;
    }
    assert a.publishTime == "" by {
      assert MetaContent(doc, MetaSource(PublishTime)) == None;
    }
  }

  /** A whitespace-only metadata value is truthy, so it wins over the page
      element and the field comes out empty. */
  lemma BlankMetaHidesElement()
    ensures ExtractField(Document(map[Property("og:title") := Some("  ")], map["activity-name" := ["T"]]), Title) == ""
  {
    var doc := Document(map[Property("og:title") := Some("  ")], map["activity-name" := ["T"]]);
    assert Truthy(MetaContent(doc, MetaSource(Title)));
    StripEmptyIffAllSpace("  ");
  }
}

=== FILE: credentials.dfy ===
/** Per-request API key resolution (`_extract_api_key` in
    wechat_mcp_streamable.py). The active request and the process
    environment are explicit arguments instead of ambient state. */
module Credentials {

  import opened Wrappers
  import opened Text

  /** The part of an inbound HTTP request the resolver reads: its
      `authorization` header, if any. */
  datatype Request = Request(authorization: Option<string>)

  /** Why no key could be resolved; `MissingContext` is the source's
      "Missing request context for authorization" and `MissingKey` its
      "Missing Authorization header and MIMO_API_KEY env". */
  datatype AuthError = MissingContext | MissingKey

  const BearerMarker: string := "bearer "

  /** `header.lower().startswith("bearer ")`. Folding ASCII letters is
      enough here: no other character lower-cases to a letter of
      "bearer " or to a space. */
  predicate HasBearerPrefix(header: string) {
    StartsWith(Lower(header), BearerMarker)
  }

  /** The key the resolver returns, or the reason it fails. `envKey` is
      the `MIMO_API_KEY` environment variable. */
  function ExtractApiKey(request: Option<Request>, envKey: Option<string>): (r: Result<string, AuthError>)
    ensures request.None? ==> r == Failure(MissingContext)
    ensures request.Some? && !Truthy(request.value.authorization) && !Truthy(envKey) ==> r == Failure(MissingKey)
    ensures request.Some? && !Truthy(request.value.authorization) && Truthy(envKey) ==> r == Success(envKey.value)
    ensures request.Some? && Truthy(request.value.authorization) ==> r.Success? && Trimmed(r.value)
    ensures request.Some? && Truthy(request.value.authorization) ==>
              var header := request.value.authorization.value;
              if HasBearerPrefix(header) then r.value == Strip(header[|BearerMarker|..]) else r.value == Strip(header)
    ensures r.Failure? ==> request.None? || (!Truthy(request.value.authorization) && !Truthy(envKey))
  {
    if request.None? then Failure(MissingContext)
    else
      var header := request.value.authorization;
      if !Truthy(header) then
        if Truthy(envKey) then Success(envKey.value) else Failure(MissingKey)
      else if HasBearerPrefix(header.value) then Success(Strip(header.value[|BearerMarker|..]))
      else Success(Strip(header.value))
  }

  /** A header made of any capitalisation of "bearer " followed by a key
      with no surrounding whitespace resolves to exactly that key, whatever
      the environment holds. */
  lemma BearerRoundTrip(scheme: string, key: string, envKey: Option<string>)
    requires Lower(scheme) == BearerMarker
    requires Trimmed(key)
    ensures ExtractApiKey(Some(Request(Some(scheme + key))), envKey) == Success(key)
  {
    var header := scheme + key;
    assert header[|BearerMarker|..] == key;
    assert Lower(header)[..|BearerMarker|] == Lower(scheme);
    StripTrimmed(key);
  }

  /** A header without the marker is used as given, stripped. */
  lemma PlainHeaderKept(header: string, envKey: Option<string>)
    requires |header| > 0 && Trimmed(header)
    requires !HasBearerPrefix(header)
    ensures ExtractApiKey(Some(Request(Some(header))), envKey) == Success(header)
  {
    StripTrimmed(header);
  }

  /** When the request carries a header, the environment is never consulted:
      concurrent requests with different headers see their own keys. */
  lemma HeaderShadowsEnvironment(request: Request, env1: Option<string>, env2: Option<string>)
    requires Truthy(request.authorization)
    ensures ExtractApiKey(Some(request), env1) == ExtractApiKey(Some(request), env2)
  {
  }

  /** "Bearer sk-abc123" resolves to "sk-abc123". */
  lemma BearerExample()
    ensures ExtractApiKey(Some(Request(Some("Bearer sk-abc123"))), None) == Success("sk-abc123")
  {
    var scheme := "Bearer ";
    assert Lower(scheme) == BearerMarker by {
      assert forall i :: 0 <= i < |scheme| ==> Lower(scheme)[i] == BearerMarker[i];
    }
    assert Trimmed("sk-abc123") by {
      assert !IsSpace('s') && !IsSpace('3');
    }
    assert scheme + "sk-abc123" == "Bearer sk-abc123";
    BearerRoundTrip(scheme, "sk-abc123", None);
  }

  /** A header holding only the marker and blanks yields the empty key
      rather than an error or the environment key. */
  lemma BareMarkerGivesEmptyKey(envKey: Option<string>)
    ensures ExtractApiKey(Some(Request(Some("Bearer   "))), envKey) == Success("")
  {
    var header := "Bearer   ";
    assert Lower(header)[..|BearerMarker|] == BearerMarker;
    assert header[|BearerMarker|..] == "  ";
    StripEmptyIffAllSpace("  ");
  }
}

=== FILE: dispatcher.dfy ===
/** The tool dispatcher of the WeChat article server (`list_tools`,
    `_fetch_html` and `call_tool` in wechat_mcp_streamable.py). The HTTP
    fetch, the HTML parser and the inference endpoint are oracles bundled in
    `Services`; the active request and the environment key are arguments.
    Each invocation reports the steps it attempted, so that what did not
    run can be stated. */
module Dispatcher {

  import opened Wrappers
  import opened Text
  import opened Article
  import opened Credentials
  import opened Inference

  const ToolName: string := "parse_wechat_article"
  const DefaultUrl: string := "https://mp.weixin.qq.com/s/8KiDOoosF4cMyOOEltq28g"

  /** One optional string property of a tool's input schema. */
  datatype SchemaProperty = SchemaProperty(name: string, description: string)

  datatype ToolDescriptor = ToolDescriptor(
    name: string,
    description: string,
    properties: seq<SchemaProperty>,
    required: seq<string>)

  /** `list_tools`: the single registered tool, with two optional string
      inputs and nothing required. */
  function ListTools(): (tools: seq<ToolDescriptor>)
    ensures |tools| == 1
    ensures tools[0].name == ToolName
    ensures |tools[0].properties| == 2
    ensures tools[0].properties[0].name == "prompt" && tools[0].properties[1].name == "url"
    ensures tools[0].required == []
  {
    [ToolDescriptor(
      ToolName,
      "获取并解析微信公众号文章",
      [SchemaProperty("prompt", "解析用提示词（可选）"), SchemaProperty("url", "微信公众号文章链接（可选）")],
      [])]
  }

  /** The `arguments` of a call, as far as the tool reads them. */
  datatype ToolArguments = ToolArguments(prompt: Option<string>, url: Option<string>)

  /** Process-wide configuration read once at start: the default prompt is
      the stripped contents of the prompt file. */
  datatype Config = Config(defaultPrompt: string)

  /** What the HTTP client reports for a GET: the final response after
      redirects, or a transport error (connection failure, timeout). */
  datatype FetchOutcome = Fetched(status: int, body: string) | TransportError(message: string)

  /** The external collaborators of one invocation. `parseHtml` stands for
      the HTML library and is total. */
  datatype Services = Services(
    fetch: string -> FetchOutcome,
    parseHtml: string -> Document,
    infer: (string, ChatRequest) -> InferOutcome)

  datatype ToolError =
    | UnknownTool(name: string)
    | FetchFailed(status: int)
    | FetchTransport(message: string)
    | AuthFailed(reason: AuthError)
    | InferenceFailed(message: string)

  const UnknownToolPrefix: string := "Unknown tool: "
  const FetchFailedPrefix: string := "Fetch failed with status "

  /** The text of the exception each failure raises: the tool name or the
      decimal status after a fixed prefix, the two fixed credential
      messages, and the text of a transport or endpoint error as it is. */
  function ErrorMessage(e: ToolError): (r: string)
    ensures e.UnknownTool? ==> StartsWith(r, UnknownToolPrefix) && r[|UnknownToolPrefix|..] == e.name
    ensures e.FetchFailed? ==> StartsWith(r, FetchFailedPrefix) && r[|FetchFailedPrefix|..] == IntToString(e.status)
    ensures e == AuthFailed(MissingContext) ==> r == "Missing request context for authorization"
    ensures e == AuthFailed(MissingKey) ==> r == "Missing Authorization header and MIMO_API_KEY env"
    ensures e.FetchTransport? || e.InferenceFailed? ==> r == e.message
  {
    match e
    case UnknownTool(name) => UnknownToolPrefix + name
    case FetchFailed(status) => FetchFailedPrefix + IntToString(status)
    case FetchTransport(message) => message
    case AuthFailed(MissingContext) => "Missing request context for authorization"
    case AuthFailed(MissingKey) => "Missing Authorization header and MIMO_API_KEY env"
    case InferenceFailed(message) => message
  }

  /** The status of a failed fetch can be read back from its message. */
  lemma FetchFailedMessageHasStatus(status: int)
    ensures var m := ErrorMessage(FetchFailed(status));
            |m| > |FetchFailedPrefix| && m[..|FetchFailedPrefix|] == FetchFailedPrefix
            && ParseInt(m[|FetchFailedPrefix|..]) == Some(status)
  {
    IntToStringRoundTrip(status);
  }

  /** `_fetch_html`: the body of a 200 response; any other status, even
      another 2xx, and any transport error fail. */
  function FetchHtml(fetch: string -> FetchOutcome, url: string): (r: Result<string, ToolError>)
    ensures r.Success? <==> fetch(url).Fetched? && fetch(url).status == 200
    ensures r.Success? ==> r.value == fetch(url).body
    ensures fetch(url).Fetched? && fetch(url).status != 200 ==> r == Failure(FetchFailed(fetch(url).status))
  {
    match fetch(url)
    case Fetched(status, body) => if status != 200 then Failure(FetchFailed(status)) else Success(body)
    case TransportError(message) => Failure(FetchTransport(message))
  }

  /** `(arguments.get(key) or "").strip() or default`: the stripped argument,
      or the default when it is missing or blank. */
  function ResolveArgument(given: Option<string>, default: string): (r: string)
    ensures given.Some? && !AllSpace(given.value) ==> r == Strip(given.value) && r != []
    ensures given.None? || AllSpace(given.value) ==> r == default
  {
    StripEmptyIffAllSpace(given.ValueOr(""));
    var s := Strip(given.ValueOr(""));
    if |s| > 0 then s else default
  }

  /** The payload returned on success: the prompt actually used and the
      model's answer. */
  datatype ToolResponse = ToolResponse(prompt: string, parsedResult: string)

  /** One attempted step of an invocation. */
  datatype Step =
    | FetchStep(url: string)
    | ParseStep(html: string)
    | CredentialStep
    | InferenceStep(apiKey: string, request: ChatRequest)

  /** The trace is a prefix of fetch, parse, credential, inference: the
      steps run in that order and none is skipped. */
  predicate InOrder(trace: seq<Step>) {
    && |trace| <= 4
    && (|trace| > 0 ==> trace[0].FetchStep?)
    && (|trace| > 1 ==> trace[1].ParseStep?)
    && (|trace| > 2 ==> trace[2].CredentialStep?)
    && (|trace| > 3 ==> trace[3].InferenceStep?)
  }

  /** Some step of the trace called the inference endpoint. */
  predicate Infers(trace: seq<Step>) {
    exists i :: 0 <= i < |trace| && trace[i].InferenceStep?
  }

  /** In an ordered trace the inference step can only be the fourth, so
      inference ran exactly when all four steps did. */
  lemma InOrderInference(trace: seq<Step>)
    requires InOrder(trace)
    ensures Infers(trace) <==> |trace| == 4
  {
    if |trace| == 4 {
      assert trace[3].InferenceStep?;
    }
  }

  datatype Invocation = Invocation(outcome: Result<ToolResponse, ToolError>, trace: seq<Step>)

  /** The steps after a successful fetch of `url`: parse the page, resolve
      the key of the active request, run inference, assemble the payload. */
  function AfterFetch(
    services: Services, request: Option<Request>, envKey: Option<string>,
    prompt: string, url: string, html: string): (inv: Invocation)
    ensures InOrder(inv.trace) && |inv.trace| >= 3
    ensures inv.trace[0] == FetchStep(url) && inv.trace[1] == ParseStep(html)
    ensures ExtractApiKey(request, envKey).Failure? <==> |inv.trace| == 3
    ensures ExtractApiKey(request, envKey).Failure? ==> inv.outcome == Failure(AuthFailed(ExtractApiKey(request, envKey).error))
    ensures ExtractApiKey(request, envKey).Success? ==>
              inv.trace[3] == InferenceStep(ExtractApiKey(request, envKey).value, BuildRequest(prompt, ParseArticle(services.parseHtml(html)).content))
    ensures inv.outcome.Success? ==> inv.outcome.value.prompt == prompt
    ensures inv.outcome.Failure? ==> inv.outcome.error.AuthFailed? || inv.outcome.error.InferenceFailed?
  {
    var content := ParseArticle(services.parseHtml(html)).content;
    match ExtractApiKey(request, envKey)
    case Failure(reason) =>
      Invocation(Failure(AuthFailed(reason)), [FetchStep(url), ParseStep(html), CredentialStep])
    case Success(apiKey) =>
      var trace := [FetchStep(url), ParseStep(html), CredentialStep, InferenceStep(apiKey, BuildRequest(prompt, content))];
      match RunInference(services.infer, apiKey, prompt, content)
      case Failure(message) => Invocation(Failure(InferenceFailed(message)), trace)
      case Success(text) => Invocation(Success(ToolResponse(prompt, text)), trace)
  }

  /** `call_tool(name, arguments)` for the request `request` in an
      environment whose `MIMO_API_KEY` is `envKey`. */
  function CallTool(
    config: Config, services: Services, request: Option<Request>, envKey: Option<string>,
    name: string, args: ToolArguments): (inv: Invocation)
    ensures inv.outcome == Failure(UnknownTool(name)) <==> name != ToolName
    ensures name != ToolName ==> inv.trace == []
    ensures name == ToolName ==> |inv.trace| > 0 && inv.trace[0] == FetchStep(ResolveArgument(args.url, DefaultUrl))
    ensures InOrder(inv.trace)
    ensures inv.outcome.Success? ==> |inv.trace| == 4
    ensures inv.outcome.Success? ==> inv.outcome.value.prompt == ResolveArgument(args.prompt, config.defaultPrompt)
    ensures ExtractApiKey(request, envKey).Failure? ==> |inv.trace| < 4
    ensures |inv.trace| == 4 ==> ExtractApiKey(request, envKey) == Success(inv.trace[3].apiKey)
  {
    if name != ToolName then Invocation(Failure(UnknownTool(name)), [])
    else
      var prompt := ResolveArgument(args.prompt, config.defaultPrompt);
      var url := ResolveArgument(args.url, DefaultUrl);
      match FetchHtml(services.fetch, url)
      case Failure(e) => Invocation(Failure(e), [FetchStep(url)])
      case Success(html) =>
        AfterFetch(services, request, envKey, prompt, url, html)
  }

  /** Missing credentials (no header and no environment key, or no request
      at all) fail the call before the inference endpoint is ever reached;
      the page is still fetched and parsed first. */
  lemma MissingCredentialNoInference(
    config: Config, services: Services, request: Option<Request>, envKey: Option<string>,
    name: string, args: ToolArguments)
    requires request.None? || (!Truthy(request.value.authorization) && !Truthy(envKey))
    ensures var inv := CallTool(config, services, request, envKey, name, args);
            !Infers(inv.trace) && inv.outcome.Failure?
    ensures name == ToolName && FetchHtml(services.fetch, ResolveArgument(args.url, DefaultUrl)).Success? ==>
              var inv := CallTool(config, services, request, envKey, name, args);
              |inv.trace| == 3 && inv.outcome.error.AuthFailed?
  {
    InOrderInference(CallTool(config, services, request, envKey, name, args).trace);
  }

  /** A response other than 200 ends the call with the status: nothing after
      the fetch runs. */
  lemma FetchFailureStops(
    config: Config, services: Services, request: Option<Request>, envKey: Option<string>, args: ToolArguments)
    requires var url := ResolveArgument(args.url, DefaultUrl);
             services.fetch(url).Fetched? && services.fetch(url).status != 200
    ensures var url := ResolveArgument(args.url, DefaultUrl);
            CallTool(config, services, request, envKey, ToolName, args)
            == Invocation(Failure(FetchFailed(services.fetch(url).status)), [FetchStep(url)])
  {
  }

  /** On success the payload carries the prompt used and the first choice
      of the completion the endpoint gave for the user message built from
      that prompt and the body extracted from the fetched page, under the
      key of the active request. */
  lemma SuccessfulCall(
    config: Config, services: Services, request: Option<Request>, envKey: Option<string>,
    name: string, args: ToolArguments)
    requires CallTool(config, services, request, envKey, name, args).outcome.Success?
    ensures var url := ResolveArgument(args.url, DefaultUrl);
            var prompt := ResolveArgument(args.prompt, config.defaultPrompt);
            var inv := CallTool(config, services, request, envKey, name, args);
            && name == ToolName
            && services.fetch(url) == Fetched(200, services.fetch(url).body)
            && ExtractApiKey(request, envKey).Success?
            && var req := BuildRequest(prompt, ParseArticle(services.parseHtml(services.fetch(url).body)).content);
               && inv.trace[3] == InferenceStep(ExtractApiKey(request, envKey).value, req)
               && services.infer(ExtractApiKey(request, envKey).value, req).Responded?
               && inv.outcome.value == ToolResponse(prompt, FirstChoiceText(services.infer(ExtractApiKey(request, envKey).value, req).completion))
  {
    var url := ResolveArgument(args.url, DefaultUrl);
    var prompt := ResolveArgument(args.prompt, config.defaultPrompt);
    var inv := CallTool(config, services, request, envKey, name, args);
    var fetched := FetchHtml(services.fetch, url);
    assert name == ToolName && fetched.Success?;
    var html := fetched.value;
    assert inv == AfterFetch(services, request, envKey, prompt, url, html);
    var apiKey := ExtractApiKey(request, envKey).value;
    var content := ParseArticle(services.parseHtml(html)).content;
    assert RunInference(services.infer, apiKey, prompt, content).Success?;
  }

  /** The dispatcher accepts exactly the names `list_tools` advertises. */
  lemma ListedToolsAreAccepted(
    config: Config, services: Services, request: Option<Request>, envKey: Option<string>,
    name: string, args: ToolArguments)
    ensures (exists t :: t in ListTools() && t.name == name)
            <==> CallTool(config, services, request, envKey, name, args).outcome != Failure(UnknownTool(name))
  {
    if name == ToolName {
      assert ListTools()[0] in ListTools();
    }
  }

  /** With no arguments the default page is fetched, and a successful call
      reports the default prompt. */
  lemma NoArgumentsUseDefaults(
    config: Config, services: Services, request: Option<Request>, envKey: Option<string>)
    ensures var inv := CallTool(config, services, request, envKey, ToolName, ToolArguments(None, None));
            && inv.trace[0] == FetchStep(DefaultUrl)
            && (inv.outcome.Success? ==> inv.outcome.value.prompt == config.defaultPrompt)
  {
  }
}

=== FILE: inference.dfy ===
/** The inference step (`_run_openai` / `_parse_with_openai` in
    wechat_mcp_streamable.py): the chat request built from the prompt and
    the article body, and the choice of the completion text. The network
    call is an oracle the dispatcher receives; running it on a worker
    thread is not modelled. */
module Inference {

  import opened Wrappers

  const ModelName: string := "mimo-v2-flash"
  const SystemPrompt: string :=
    "You are MiMo, an AI assistant developed by Xiaomi. "
    + "Today is date: Tuesday, December 16, 2025. "
    + "Your knowledge cutoff date is December 2024."

  /** What separates the prompt from the article body in the user message. */
  const Separator: string := "\n\n---\n\n"

  datatype Role = SystemRole | UserRole

  datatype ChatMessage = ChatMessage(role: Role, content: string)

  /** The request sent to the chat-completion endpoint; the sampling
      settings are the source's fixed values. */
  datatype ChatRequest = ChatRequest(
    model: string,
    messages: seq<ChatMessage>,
    maxCompletionTokens: nat,
    temperature: real,
    topP: real,
    stream: bool,
    thinkingEnabled: bool)

  /** `f"{prompt}\n\n---\n\n{content}"`: the prompt, the separator and the
      body, each found again at its own offset. */
  function UserMessage(prompt: string, content: string): (m: string)
    ensures |m| == |prompt| + |Separator| + |content|
    ensures m[..|prompt|] == prompt
    ensures m[|prompt|..|prompt| + |Separator|] == Separator
    ensures m[|prompt| + |Separator|..] == content
  {
    prompt + Separator + content
  }

  /** For a fixed prompt, the body can be read back from the message, so
      different articles give different messages. */
  lemma UserMessageInjective(prompt: string, c1: string, c2: string)
    requires UserMessage(prompt, c1) == UserMessage(prompt, c2)
    ensures c1 == c2
  {
    var m := UserMessage(prompt, c1);
    assert c1 == m[|prompt| + |Separator|..];
  }

  /** For a fixed body, the prompt can be read back from the message. */
  lemma UserMessagePromptInjective(p1: string, p2: string, content: string)
    requires UserMessage(p1, content) == UserMessage(p2, content)
    ensures p1 == p2
  {
    var m := UserMessage(p1, content);
    assert |p1| == |p2|;
    assert p1 == m[..|p1|];
  }

  /** The two-message exchange: the fixed system instruction, then the user
      message; non-streaming, at most 1024 tokens, thinking disabled. */
  function BuildRequest(prompt: string, content: string): (req: ChatRequest)
    ensures |req.messages| == 2
    ensures req.messages[0] == ChatMessage(SystemRole, SystemPrompt)
    ensures req.messages[1] == ChatMessage(UserRole, UserMessage(prompt, content))
    ensures req.model == ModelName && !req.stream && !req.thinkingEnabled
  {
    ChatRequest(
      ModelName,
      [ChatMessage(SystemRole, SystemPrompt), ChatMessage(UserRole, UserMessage(prompt, content))],
      1024, 0.3, 0.95, false, false)
  }

  /** The assistant message of one choice; its `content` may be null. */
  datatype AssistantMessage = AssistantMessage(content: Option<string>)

  datatype Choice = Choice(message: Option<AssistantMessage>)

  datatype Completion = Completion(choices: seq<Choice>)

  /** What the endpoint returned: a completion, or the error the client raised. */
  datatype InferOutcome = Responded(completion: Completion) | ApiError(message: string)

  /** The text of the first choice; "" when there are no choices, when the
      first has no message, or when that message has no content. */
  function FirstChoiceText(c: Completion): (r: string)
    ensures |c.choices| == 0 ==> r == ""
    ensures |c.choices| > 0 && c.choices[0].message.Some? && c.choices[0].message.value.content.Some?
            ==> r == c.choices[0].message.value.content.value
    ensures |c.choices| > 0 && (c.choices[0].message.None? || c.choices[0].message.value.content.None?)
            ==> r == ""
  {
    if |c.choices| > 0 && c.choices[0].message.Some? then c.choices[0].message.value.content.ValueOr("")
    else ""
  }

  /** Only the first choice matters: later choices never change the text. */
  lemma FirstChoiceOnly(first: Choice, rest1: seq<Choice>, rest2: seq<Choice>)
    ensures FirstChoiceText(Completion([first] + rest1)) == FirstChoiceText(Completion([first] + rest2))
  {
  }

  /** `_parse_with_openai`: send the request built from `prompt` and
      `content` under `apiKey`; an upstream error becomes a failure, a
      completion its first choice's text. */
  function RunInference(infer: (string, ChatRequest) -> InferOutcome, apiKey: string, prompt: string, content: string)
    : (r: Result<string, string>)
    ensures var outcome := infer(apiKey, BuildRequest(prompt, content));
            && (r.Success? <==> outcome.Responded?)
            && (r.Success? ==> r.value == FirstChoiceText(outcome.completion))
            && (r.Failure? ==> r.error == outcome.message)
  {
    match infer(apiKey, BuildRequest(prompt, content))
    case Responded(completion) => Success(FirstChoiceText(completion))
    case ApiError(message) => Failure(message)
  }
}

=== FILE: text.dfy ===
/** The slice of Python's `str` behaviour that the two servers rely on:
    `strip()`, pydantic's whitespace trimming, ASCII case folding,
    `startswith`, `sep.join(...)` and the decimal rendering `str(n)` of an
    integer, with a reader for that rendering.
    Strings are sequences of Unicode scalar values, which is also what
    Python's `len` counts. */
module Text {

  import opened Wrappers

  /** The characters for which Python's `str.isspace()` holds: the ASCII
      controls TAB..CR and FS..US, SPACE, NEL, NO-BREAK SPACE, OGHAM SPACE
      MARK, the spaces EN QUAD..HAIR SPACE, LINE and PARAGRAPH SEPARATOR,
      NARROW NO-BREAK SPACE, MEDIUM MATHEMATICAL SPACE and IDEOGRAPHIC SPACE. */
  const SpaceChars: set<char> := {
    '\t', '\n', '\U{0B}', '\U{0C}', '\r',
    '\U{1C}', '\U{1D}', '\U{1E}', '\U{1F}', ' ',
    '\U{85}', '\U{A0}', '\U{1680}',
    '\U{2000}', '\U{2001}', '\U{2002}', '\U{2003}', '\U{2004}', '\U{2005}',
    '\U{2006}', '\U{2007}', '\U{2008}', '\U{2009}', '\U{200A}',
    '\U{2028}', '\U{2029}', '\U{202F}', '\U{205F}', '\U{3000}'
  }

  predicate IsSpace(c: char) {
    c in SpaceChars
  }

  /** True when every character of `s` is whitespace (vacuously for ""). */
  predicate AllSpace(s: string) {
    forall i :: 0 <= i < |s| ==> IsSpace(s[i])
  }

  /** A string with no whitespace at either end: what `strip()` returns. */
  predicate Trimmed(s: string) {
    |s| == 0 || (!IsSpace(s[0]) && !IsSpace(s[|s| - 1]))
  }

  /** The number of whitespace characters `s` starts with. */
  function LeadingSpace(s: string): (n: nat)
    ensures n <= |s| && AllSpace(s[..n])
    ensures n == |s| || !IsSpace(s[n])
  {
    if |s| > 0 && IsSpace(s[0]) then
      var m := LeadingSpace(s[1..]);
      m + 1
    else 0
  }

  /** `str.lstrip()`: drops the leading whitespace and keeps the rest. */
  function TrimStart(s: string): (r: string)
    ensures |r| <= |s| && r == s[|s| - |r|..]
    ensures AllSpace(s[..|s| - |r|])
    ensures |r| == 0 || !IsSpace(r[0])
  {
    s[LeadingSpace(s)..]
  }

  /** `str.rstrip()`: drops the trailing whitespace and keeps the rest. */
  function TrimEnd(s: string): (r: string)
    ensures |r| <= |s| && r == s[..|r|]
    ensures AllSpace(s[|r|..])
    ensures |r| == 0 || !IsSpace(r[|r| - 1])
    decreases |s|
  {
    if |s| > 0 && IsSpace(s[|s| - 1]) then
      var t := s[..|s| - 1];
      var r := TrimEnd(t);
      assert forall k :: |r| <= k < |s| - 1 ==> s[k] == t[|r|..][k - |r|];
      r
    else s
  }

  /** `str.strip()`: `TrimEnd` after `TrimStart`. */
  function Strip(s: string): (r: string)
    ensures Trimmed(r)
    ensures |r| <= |s|
  {
    var a := TrimStart(s);
    var r := TrimEnd(a);
    assert |r| == 0 || !IsSpace(r[0]) by {
      if |r| > 0 {
        assert r[0] == a[0];
      }
    }
    r
  }

  /** What `strip()` returns is a slice of its argument, and everything it
      removed at either end is whitespace. */
  lemma StripIsSlice(s: string) returns (i: nat, j: nat)
    ensures i <= j <= |s| && Strip(s) == s[i..j]
    ensures AllSpace(s[..i]) && AllSpace(s[j..])
  {
    var a := TrimStart(s);
    var r := TrimEnd(a);
    i := |s| - |a|;
    j := i + |r|;
    assert r == s[i..j];
    assert s[j..] == a[|r|..];
  }

  /** Stripping a string that has no whitespace at its ends changes nothing. */
  lemma {:induction false} StripTrimmed(s: string)
    requires Trimmed(s)
    ensures Strip(s) == s
  {
    assert TrimStart(s) == s;
    assert TrimEnd(s) == s;
  }

  /** `strip()` is idempotent, so stripping twice (as pydantic and then the
      field validators do) is the same as stripping once. */
  lemma StripIdempotent(s: string)
    ensures Strip(Strip(s)) == Strip(s)
  {
    StripTrimmed(Strip(s));
  }

  /** `strip()` returns "" exactly for the strings made only of whitespace. */
  lemma {:induction false} StripEmptyIffAllSpace(s: string)
    ensures Strip(s) == [] <==> AllSpace(s)
  {
    var r := Strip(s);
    var i, j := StripIsSlice(s);
    if r == [] {
      forall k | 0 <= k < |s|
        ensures IsSpace(s[k])
      {
        if k < i {
          assert s[k] == s[..i][k];
        } else {
          assert s[k] == s[j..][k - j];
        }
      }
    } else {
      assert s[i] == r[0];
    }
  }

  /** Whitespace in front of a string that does not start with whitespace
      is exactly what `LeadingSpace` counts. */
  lemma {:induction false} LeadingSpaceOfPadded(p: string, x: string)
    requires AllSpace(p) && (|x| == 0 || !IsSpace(x[0]))
    ensures LeadingSpace(p + x) == |p|
  {
    if |p| > 0 {
      assert (p + x)[0] == p[0];
      assert (p + x)[1..] == p[1..] + x;
      assert forall k :: 0 <= k < |p| - 1 ==> p[1..][k] == p[k + 1];
      LeadingSpaceOfPadded(p[1..], x);
    } else {
      assert p + x == x;
    }
  }

  /** `TrimEnd` removes exactly the whitespace after a string that does not
      end with whitespace. */
  lemma {:induction false} TrimEndOfPadded(x: string, q: string)
    requires AllSpace(q) && (|x| == 0 || !IsSpace(x[|x| - 1]))
    ensures TrimEnd(x + q) == x
    decreases |q|
  {
    if |q| > 0 {
      var s := x + q;
      assert s[|s| - 1] == q[|q| - 1];
      assert s[..|s| - 1] == x + q[..|q| - 1];
      assert forall k :: 0 <= k < |q| - 1 ==> q[..|q| - 1][k] == q[k];
      TrimEndOfPadded(x, q[..|q| - 1]);
    } else {
      assert x + q == x;
    }
  }

  /** A trimmed string padded with whitespace on both sides strips back to
      itself: `strip()` removes exactly the outer whitespace. */
  lemma StripOfPadded(p: string, m: string, q: string)
    requires AllSpace(p) && AllSpace(q) && Trimmed(m)
    ensures Strip(p + m + q) == m
  {
    var s := p + m + q;
    if |m| == 0 {
      assert s == p + q;
      AllSpaceAppend(p, q);
      StripEmptyIffAllSpace(s);
    } else {
      assert s == p + (m + q);
      assert (m + q)[0] == m[0];
      LeadingSpaceOfPadded(p, m + q);
      assert TrimStart(s) == m + q;
      TrimEndOfPadded(m, q);
    }
  }

  lemma AllSpaceAppend(x: string, y: string)
    requires AllSpace(x) && AllSpace(y)
    ensures AllSpace(x + y)
  {
    assert forall k :: |x| <= k < |x + y| ==> (x + y)[k] == y[k - |x|];
  }

  /** Cutting a slice out of a slice and regrouping the pieces gives back
      the whole string. */
  lemma SliceRegroup(s: string, i: nat, j: nat, a: nat, b: nat)
    requires i <= j <= |s| && a <= b <= j - i
    ensures s == (s[..i] + s[i..j][..a]) + s[i..j][a..b] + (s[i..j][b..] + s[j..])
  {
    var t := s[i..j];
    assert t == t[..a] + t[a..b] + t[b..];
    assert s == s[..i] + t + s[j..];
  }

  /** Cutting whitespace off the ends of a string does not change what
      `strip()` returns. */
  lemma StripOfInnerSlice(s: string, i: nat, j: nat)
    requires i <= j <= |s| && AllSpace(s[..i]) && AllSpace(s[j..])
    ensures Strip(s[i..j]) == Strip(s)
  {
    var t := s[i..j];
    var a, b := StripIsSlice(t);
    SliceRegroup(s, i, j, a, b);
    AllSpaceAppend(s[..i], t[..a]);
    AllSpaceAppend(t[b..], s[j..]);
    StripOfPadded(s[..i] + t[..a], t[a..b], t[b..] + s[j..]);
  }

  /** The characters with the Unicode `White_Space` property: the `str.isspace`
      characters except the four information separators U+001C..U+001F. */
  predicate IsWhiteSpace(c: char) {
    IsSpace(c) && !('\U{1C}' <= c <= '\U{1F}')
  }

  predicate AllWhiteSpace(s: string) {
    forall i :: 0 <= i < |s| ==> IsWhiteSpace(s[i])
  }

  /** Rust's `str::trim`, which pydantic's `str_strip_whitespace` applies:
      drops `White_Space` characters at both ends. */
  function Trim(s: string): (r: string)
    ensures |r| <= |s|
    ensures |r| == 0 || (!IsWhiteSpace(r[0]) && !IsWhiteSpace(r[|r| - 1]))
    decreases |s|
  {
    if |s| > 0 && IsWhiteSpace(s[0]) then Trim(s[1..])
    else if |s| > 0 && IsWhiteSpace(s[|s| - 1]) then Trim(s[..|s| - 1])
    else s
  }

  /** What `Trim` returns is a slice of its argument, and everything it
      removed is `White_Space`. */
  lemma {:induction false} TrimIsSlice(s: string) returns (i: nat, j: nat)
    ensures i <= j <= |s| && Trim(s) == s[i..j]
    ensures AllWhiteSpace(s[..i]) && AllWhiteSpace(s[j..])
    decreases |s|
  {
    if |s| > 0 && IsWhiteSpace(s[0]) {
      var t := s[1..];
      assert Trim(s) == Trim(t);
      var i', j' := TrimIsSlice(t);
      i, j := i' + 1, j' + 1;
      SliceOfTail(s, i', j');
      AllWhiteSpaceAppend([s[0]], t[..i']);
    } else if |s| > 0 && IsWhiteSpace(s[|s| - 1]) {
      var t := s[..|s| - 1];
      assert Trim(s) == Trim(t);
      i, j := TrimIsSlice(t);
      SliceOfFront(s, i, j);
      AllWhiteSpaceAppend(t[j..], [s[|s| - 1]]);
    } else {
      i, j := 0, |s|;
    }
  }

  lemma SliceOfTail(s: string, i: nat, j: nat)
    requires 0 < |s| && i <= j <= |s| - 1
    ensures s[1..][i..j] == s[i + 1..j + 1]
    ensures s[..i + 1] == [s[0]] + s[1..][..i]
    ensures s[j + 1..] == s[1..][j..]
  {
  }

  lemma SliceOfFront(s: string, i: nat, j: nat)
    requires 0 < |s| && i <= j <= |s| - 1
    ensures s[..|s| - 1][i..j] == s[i..j]
    ensures s[..i] == s[..|s| - 1][..i]
    ensures s[j..] == s[..|s| - 1][j..] + [s[|s| - 1]]
  {
  }

  lemma AllWhiteSpaceAppend(x: string, y: string)
    requires AllWhiteSpace(x) && AllWhiteSpace(y)
    ensures AllWhiteSpace(x + y)
  {
    assert forall k :: |x| <= k < |x + y| ==> (x + y)[k] == y[k - |x|];
  }

  lemma WhiteIsSpace(s: string)
    requires AllWhiteSpace(s)
    ensures AllSpace(s)
  {
  }

  /** Python's `strip()` after Rust's `trim()` is Python's `strip()` alone,
      because every `White_Space` character is also `isspace`. */
  lemma StripAfterTrim(s: string)
    ensures Strip(Trim(s)) == Strip(s)
  {
    var i, j := TrimIsSlice(s);
    WhiteIsSpace(s[..i]);
    WhiteIsSpace(s[j..]);
    StripOfInnerSlice(s, i, j);
  }

  /** Trimming cannot turn a blank string into a non-blank one or back. */
  lemma TrimKeepsBlankness(s: string)
    ensures AllSpace(Trim(s)) <==> AllSpace(s)
  {
    StripAfterTrim(s);
    StripEmptyIffAllSpace(s);
    StripEmptyIffAllSpace(Trim(s));
  }

  /** Python truthiness of an optional string (`if value:`): present and
      non-empty. Whitespace counts as non-empty. */
  predicate Truthy(v: Option<string>) {
    v.Some? && |v.value| > 0
  }

  /** `str.lower()` restricted to ASCII: only 'A'..'Z' change. */
  function AsciiLowerChar(c: char): (r: char)
    ensures 'A' <= c <= 'Z' ==> 'a' <= r <= 'z' && r as int - c as int == 32
    ensures !('A' <= c <= 'Z') ==> r == c
  {
    if 'A' <= c <= 'Z' then (c as int + 32) as char else c
  }

  function Lower(s: string): (r: string)
    ensures |r| == |s|
    ensures forall i :: 0 <= i < |s| ==> r[i] == AsciiLowerChar(s[i])
  {
    seq(|s|, i requires 0 <= i < |s| => AsciiLowerChar(s[i]))
  }

  predicate StartsWith(s: string, prefix: string) {
    |prefix| <= |s| && s[..|prefix|] == prefix
  }

  /** `sep.join(parts)`. */
  function Join(parts: seq<string>, sep: string): (r: string)
    ensures |parts| == 0 ==> r == []
    ensures |parts| > 0 ==> StartsWith(r, parts[0])
    ensures |parts| > 0 ==> EndsWith(r, parts[|parts| - 1])
  {
    if |parts| == 0 then []
    else if |parts| == 1 then parts[0]
    else
      var tail := Join(parts[1..], sep);
      var r := parts[0] + sep + tail;
      assert r[|r| - |tail|..] == tail;
      assert parts[1..][|parts[1..]| - 1] == parts[|parts| - 1];
      r
  }

  predicate EndsWith(s: string, suffix: string) {
    |suffix| <= |s| && s[|s| - |suffix|..] == suffix
  }

  /** A single part is joined to itself. */
  lemma JoinSingle(x: string, sep: string)
    ensures Join([x], sep) == x
  {
  }

  /** Joining two non-empty runs of parts puts one separator between their
      joins; with `JoinSingle` this fixes `Join` on every input. */
  lemma {:induction false} JoinAppend(a: seq<string>, b: seq<string>, sep: string)
    requires |a| > 0 && |b| > 0
    ensures Join(a + b, sep) == Join(a, sep) + sep + Join(b, sep)
  {
    var x, t := a[0], a[1..];
    assert a == [x] + t;
    if |t| == 0 {
      JoinCons(x, b, sep);
      assert a + b == [x] + b;
    } else {
      assert a + b == [x] + (t + b);
      JoinCons(x, t + b, sep);
      JoinAppend(t, b, sep);
      JoinCons(x, t, sep);
      ConcatAssoc5(x, sep, Join(t, sep), sep, Join(b, sep));
    }
  }

  /** Regrouping five concatenated strings. */
  lemma ConcatAssoc5(p: string, q: string, u: string, v: string, w: string)
    ensures p + q + (u + v + w) == (p + q + u) + v + w
  {
  }

  /** One more part in front adds it and one separator. */
  lemma JoinCons(x: string, rest: seq<string>, sep: string)
    requires |rest| > 0
    ensures Join([x] + rest, sep) == x + sep + Join(rest, sep)
  {
    assert ([x] + rest)[1..] == rest;
  }

  /** Joining trimmed, non-empty parts gives a trimmed string, whatever the
      separator: the ends of the result are the ends of the first and last part. */
  lemma JoinTrimmed(parts: seq<string>, sep: string)
    requires forall k :: 0 <= k < |parts| ==> |parts[k]| > 0 && Trimmed(parts[k])
    ensures Trimmed(Join(parts, sep))
    ensures |parts| > 0 ==> |Join(parts, sep)| > 0
  {
    if |parts| > 0 {
      var r := Join(parts, sep);
      var first, last := parts[0], parts[|parts| - 1];
      assert r[0] == first[0];
      assert r[|r| - 1] == r[|r| - |last|..][|last| - 1] == last[|last| - 1];
    }
  }

  predicate IsDigit(c: char) {
    '0' <= c <= '9'
  }

  predicate AllDigits(s: string) {
    forall i :: 0 <= i < |s| ==> IsDigit(s[i])
  }

  function DigitChar(d: nat): (c: char)
    requires d < 10
    ensures IsDigit(c)
  {
    ('0' as int + d) as char
  }

  function DigitValue(c: char): (d: nat)
    requires IsDigit(c)
    ensures d < 10
  {
    c as int - '0' as int
  }

  /** `str(n)` for a natural number: its shortest decimal rendering. */
  function NatToString(n: nat): (r: string)
    ensures CanonicalDigits(r)
  {
    if n < 10 then [DigitChar(n)] else NatToString(n / 10) + [DigitChar(n % 10)]
  }

  /** Decimal digits without a superfluous leading zero: the form `str(n)`
      writes. */
  predicate CanonicalDigits(s: string) {
    |s| > 0 && AllDigits(s) && (|s| == 1 || s[0] != '0')
  }

  /** `int(s)` for a string of decimal digits. */
  function ParseNat(s: string): nat
    requires AllDigits(s)
  {
    if |s| == 0 then 0 else ParseNat(s[..|s| - 1]) * 10 + DigitValue(s[|s| - 1])
  }

  lemma {:induction false} ParseNatToString(n: nat)
    ensures ParseNat(NatToString(n)) == n
  {
    if n >= 10 {
      ParseNatToString(n / 10);
      var s := NatToString(n);
      assert s[..|s| - 1] == NatToString(n / 10);
    }
  }

  /** Digits that start with a non-zero digit denote a positive number. */
  lemma {:induction false} ParseNatPositive(s: string)
    requires |s| > 0 && AllDigits(s) && s[0] != '0'
    ensures ParseNat(s) > 0
  {
    if |s| > 1 {
      var t := s[..|s| - 1];
      assert t[0] == s[0];
      ParseNatPositive(t);
    }
  }

  /** `str(n)` is the only canonical rendering of `n`: reading canonical
      digits and writing the number back gives the same digits. */
  lemma {:induction false} NatToStringOfParse(s: string)
    requires CanonicalDigits(s)
    ensures NatToString(ParseNat(s)) == s
  {
    var d := DigitValue(s[|s| - 1]);
    assert DigitChar(d) == s[|s| - 1];
    if |s| > 1 {
      var t := s[..|s| - 1];
      assert t[0] == s[0];
      ParseNatPositive(t);
      NatToStringOfParse(t);
      var n := ParseNat(s);
      assert n / 10 == ParseNat(t) && n % 10 == d;
      assert s == t + [s[|s| - 1]];
    } else {
      assert s == [s[0]];
    }
  }

  /** Canonical digits other than "0" denote a positive number. */
  lemma NonZeroDigitsPositive(s: string)
    requires CanonicalDigits(s) && s != "0"
    ensures ParseNat(s) > 0
  {
    if |s| == 1 {
      assert s == [s[0]];
    }
    ParseNatPositive(s);
  }

  /** `str(i)` for any integer: a minus sign before the digits of a negative. */
  function IntToString(i: int): (r: string)
    ensures |r| > 0
    ensures i >= 0 <==> r[0] != '-'
  {
    if i < 0 then "-" + NatToString(-i) else NatToString(i)
  }

  /** Reads back exactly what `IntToString` writes: canonical decimal digits,
      after a minus sign when the number is negative. It is not Python's
      `int`, which also accepts leading zeros, "-0", a plus sign,
      surrounding whitespace and underscores. */
  function ParseInt(s: string): (r: Option<int>)
    ensures r.Some? ==> |s| > 0 && (r.value < 0 <==> s[0] == '-')
  {
    if |s| > 1 && s[0] == '-' && CanonicalDigits(s[1..]) && s[1..] != "0" then
      NonZeroDigitsPositive(s[1..]);
      Some(0 - ParseNat(s[1..]) as int)
    else if CanonicalDigits(s) then Some(ParseNat(s))
    else None
  }

  /** Rendering an integer and reading it back gives the integer again. */
  lemma IntToStringRoundTrip(i: int)
    ensures ParseInt(IntToString(i)) == Some(i)
  {
    var s := IntToString(i);
    if i < 0 {
      assert s[1..] == NatToString(-i);
      ParseNatToString(-i);
      assert ParseInt(s) == Some(0 - ParseNat(s[1..]) as int);
    } else {
      assert s[0] != '-';
      ParseNatToString(i);
      assert ParseInt(s) == Some(ParseNat(s));
    }
  }

  /** What `ParseInt` accepts is exactly the rendering of the number it
      reads, so a text that reads back to `i` is `str(i)`. */
  lemma ParseIntCanonical(s: string, i: int)
    requires ParseInt(s) == Some(i)
    ensures s == IntToString(i)
  {
    if |s| > 1 && s[0] == '-' && CanonicalDigits(s[1..]) && s[1..] != "0" {
      NatToStringOfParse(s[1..]);
      assert s == "-" + s[1..];
    } else {
      NatToStringOfParse(s);
    }
  }

  /** Distinct integers have distinct renderings. */
  lemma IntToStringInjective(a: int, b: int)
    requires IntToString(a) == IntToString(b)
    ensures a == b
  {
    IntToStringRoundTrip(a);
    IntToStringRoundTrip(b);
  }
}

=== FILE: weather_codes.dfy ===
/** The two classifiers of the weather tools (`_get_weather_description`
    and `_get_uv_description` in weather.py): the WMO weather interpretation
    codes (WMO code table 4677, as Open-Meteo reports them) and the UV
    index bands. */
module WeatherCodes {

  import opened Wrappers
  import opened Text

  /** The 24 WMO codes the server names, with their descriptions. */
  const WmoDescriptions: map<int, string> := map[
    0 := "晴朗",
    1 := "大部分晴朗",
    2 := "部分多云",
    3 := "阴天",
    45 := "雾",
    48 := "雾凇",
    51 := "毛毛雨（轻度）",
    53 := "毛毛雨（中度）",
    55 := "毛毛雨（重度）",
    61 := "小雨",
    63 := "中雨",
    65 := "大雨",
    71 := "小雪",
    73 := "中雪",
    75 := "大雪",
    77 := "雪粒",
    80 := "阵雨（轻度）",
    81 := "阵雨（中度）",
    82 := "阵雨（重度）",
    85 := "小阵雪",
    86 := "大阵雪",
    95 := "雷暴",
    96 := "雷暴伴冰雹（轻度）",
    99 := "雷暴伴冰雹（重度）"
  ]

  const UnknownPrefix: string := "未知天气状况 (代码: "
  const UnknownSuffix: string := ")"

  /** `_get_weather_description(code)`: the table entry, or a message that
      quotes the unknown code in decimal. */
  function WeatherDescription(code: int): (r: string)
    ensures code in WmoDescriptions ==> r == WmoDescriptions[code]
    ensures code !in WmoDescriptions ==>
              && |r| > |UnknownPrefix| + |UnknownSuffix|
              && r[..|UnknownPrefix|] == UnknownPrefix
              && r[|r| - |UnknownSuffix|..] == UnknownSuffix
              && r[|UnknownPrefix|..|r| - |UnknownSuffix|] == IntToString(code)
              && ParseInt(r[|UnknownPrefix|..|r| - |UnknownSuffix|]) == Some(code)
  {
    if code in WmoDescriptions then WmoDescriptions[code]
    else
      var r := UnknownPrefix + IntToString(code) + UnknownSuffix;
      assert r[|UnknownPrefix|..|r| - |UnknownSuffix|] == IntToString(code);
      IntToStringRoundTrip(code);
      r
  }

  /** No description in the table reads like the unknown-code message. */
  lemma KnownDescriptionsAreNotUnknown(code: int)
    requires code in WmoDescriptions
    ensures |WmoDescriptions[code]| < |UnknownPrefix|
  {
  }

  /** Different codes always get different descriptions, so the description
      determines the code. */
  lemma WeatherDescriptionInjective(a: int, b: int)
    requires WeatherDescription(a) == WeatherDescription(b)
    ensures a == b
  {
    var r := WeatherDescription(a);
    if a in WmoDescriptions && b in WmoDescriptions {
      KnownDescriptionsDistinct(a, b);
    } else if a in WmoDescriptions {
      KnownDescriptionsAreNotUnknown(a);
    } else if b in WmoDescriptions {
      KnownDescriptionsAreNotUnknown(b);
    }
  }

  /** The table's descriptions are pairwise different. */
  lemma KnownDescriptionsDistinct(a: int, b: int)
    requires a in WmoDescriptions && b in WmoDescriptions
    requires WmoDescriptions[a] == WmoDescriptions[b]
    ensures a == b
  {
  }

  /** The five UV bands, from lowest to highest. */
  datatype UvBand = Low | Moderate | High | VeryHigh | Extreme

  function Rank(b: UvBand): nat {
    match b
    case Low => 0
    case Moderate => 1
    case High => 2
    case VeryHigh => 3
    case Extreme => 4
  }

  /** The inclusive upper limits of the first four bands. */
  const UvLimits: seq<real> := [2.0, 5.0, 7.0, 10.0]

  /** The band of a UV index: the first band whose upper limit the index
      does not exceed, and the top band above all of them. */
  function UvBandOf(uv: real): (b: UvBand)
    ensures forall k :: 0 <= k < |UvLimits| ==> (Rank(b) <= k <==> uv <= UvLimits[k])
  {
    if uv <= 2.0 then Low
    else if uv <= 5.0 then Moderate
    else if uv <= 7.0 then High
    else if uv <= 10.0 then VeryHigh
    else Extreme
  }

  function UvLabel(b: UvBand): string {
    match b
    case Low => "低"
    case Moderate => "中等"
    case High => "高"
    case VeryHigh => "很高"
    case Extreme => "极高"
  }

  /** `_get_uv_description(uv_index)`: the label of the first inclusive
      limit the index does not exceed. */
  function UvDescription(uv: real): (r: string)
    ensures uv <= 2.0 ==> r == "低"
    ensures 2.0 < uv <= 5.0 ==> r == "中等"
    ensures 5.0 < uv <= 7.0 ==> r == "高"
    ensures 7.0 < uv <= 10.0 ==> r == "很高"
    ensures 10.0 < uv ==> r == "极高"
  {
    var b := UvBandOf(uv);
    assert Rank(b) <= 0 <==> uv <= UvLimits[0];
    assert Rank(b) <= 1 <==> uv <= UvLimits[1];
    assert Rank(b) <= 2 <==> uv <= UvLimits[2];
    assert Rank(b) <= 3 <==> uv <= UvLimits[3];
    UvLabel(b)
  }

  /** A higher UV index never lands in a lower band. */
  lemma UvBandMonotone(a: real, b: real)
    requires a <= b
    ensures Rank(UvBandOf(a)) <= Rank(UvBandOf(b))
  {
    var ra, rb := Rank(UvBandOf(a)), Rank(UvBandOf(b));
    if rb < 4 {
      assert b <= UvLimits[rb];
    }
  }

  /** Each band has its own label, so the description determines the band. */
  lemma UvLabelInjective(x: UvBand, y: UvBand)
    requires UvLabel(x) == UvLabel(y)
    ensures x == y
  {
  }
}

=== FILE: weather_errors.dfy ===
/** How the weather tools turn an exception into the text they return
    (`_handle_api_error` in weather.py). */
module WeatherErrors {

  import opened Wrappers
  import opened Text

  /** The exceptions the handler tells apart: an HTTP error status, a
      timeout, and anything else, known only by its `str()`. */
  datatype ApiException =
    | HttpStatusError(status: int)
    | TimeoutError
    | OtherError(message: string)

  const ErrorPrefix: string := "Error: "
  const NotFoundText: string := "Weather data not found. " + "Please check the location and try again."
  const RateLimitText: string := "Rate limit exceeded. " + "Please wait before making more requests."
  const NotFoundMessage: string := ErrorPrefix + NotFoundText
  const RateLimitMessage: string := ErrorPrefix + RateLimitText
  const TimeoutMessage: string := ErrorPrefix + "Request timed out. Please try again."
  const StatusPrefix: string := ErrorPrefix + "API request failed with status "

  function HandleApiError(e: ApiException): (r: string)
    ensures StartsWith(r, ErrorPrefix)
    ensures e == HttpStatusError(404) ==> r == NotFoundMessage
    ensures e == HttpStatusError(429) ==> r == RateLimitMessage
    ensures e.HttpStatusError? && e.status != 404 && e.status != 429 ==>
              && StartsWith(r, StatusPrefix)
              && r[|StatusPrefix|..] == IntToString(e.status)
              && ParseInt(r[|StatusPrefix|..]) == Some(e.status)
    ensures e.TimeoutError? ==> r == TimeoutMessage
    ensures e.OtherError? ==> r[|ErrorPrefix|..] == e.message
  {
    match e
    case HttpStatusError(status) =>
      if status == 404 then NotFoundMessage
      else if status == 429 then RateLimitMessage
      else
        var r := StatusPrefix + IntToString(status);
        assert r[|StatusPrefix|..] == IntToString(status);
        IntToStringRoundTrip(status);
        r
    case TimeoutError => TimeoutMessage
    case OtherError(message) => ErrorPrefix + message
  }

  /** Two HTTP errors give the same text only for the same status. */
  lemma StatusMessagesDistinct(a: int, b: int)
    requires HandleApiError(HttpStatusError(a)) == HandleApiError(HttpStatusError(b))
    ensures a == b
  {
    var r := HandleApiError(HttpStatusError(a));
    var k := |ErrorPrefix|;
    assert NotFoundMessage[k] == NotFoundText[0] == 'W';
    assert RateLimitMessage[k] == RateLimitText[0] == 'R';
    assert StatusPrefix[k] == 'A';
    if a != 404 && a != 429 {
      assert r[k] == 'A';
    }
    if b != 404 && b != 429 {
      assert r[k] == 'A';
    }
  }
}

=== FILE: weather_format.dfy ===
/** The two formatters of a forecast (`_format_weather_json` and
    `_format_weather_markdown` in weather.py), as far as they select data:
    which day of the `daily` arrays is shown, which entries appear, and
    when reading or formatting a value raises. The text the rendering
    produces (number formats, the sunrise/sunset time split, JSON text) is
    not modelled: reports carry the selected values themselves. */
module WeatherFormat {

  import opened Wrappers

  /** A JSON value inside a `daily` array. */
  datatype Value = Int(i: int) | Float(r: real) | Str(s: string) | Null

  /** The `daily` object of a forecast: one array per variable. A forecast
      without `daily` behaves as an empty one. */
  type Daily = map<string, seq<Value>>

  datatype CityInfo = CityInfo(name: string, country: string, latitude: real, longitude: real)

  /** `values.index(x)`: the first position holding `x`, `None` where Python
      raises `ValueError`. */
  function IndexOf(values: seq<Value>, x: Value): (r: Option<nat>)
    ensures r.None? <==> x !in values
    ensures r.Some? ==> r.value < |values| && values[r.value] == x
    ensures r.Some? ==> forall j :: 0 <= j < r.value ==> values[j] != x
  {
    if |values| == 0 then None
    else if values[0] == x then Some(0)
    else
      match IndexOf(values[1..], x)
      case None => None
      case Some(k) => Some(k + 1)
  }

  /** The `time` array, or `[]` when `daily` has none. */
  function Dates(daily: Daily): seq<Value> {
    if "time" in daily then daily["time"] else []
  }

  /** The position of `targetDate` among the forecast's dates. */
  function DateIndex(daily: Daily, targetDate: string): Option<nat> {
    IndexOf(Dates(daily), Str(targetDate))
  }

  function NotAvailable(targetDate: string): string {
    "Weather data not available for " + targetDate
  }

  datatype JsonReport =
    | JsonError(error: string)
    | JsonForecast(city: string, country: string, date: string, latitude: real, longitude: real, weather: map<string, Value>)

  /** `_format_weather_json`: the error object when the date is missing;
      otherwise the city, the date and, for every variable whose array
      reaches that day, the value of that day. */
  function FormatJson(daily: Daily, city: CityInfo, targetDate: string): (r: JsonReport)
    ensures r.JsonError? <==> Str(targetDate) !in Dates(daily)
    ensures r.JsonError? ==> r.error == NotAvailable(targetDate)
    ensures r.JsonForecast? ==>
              var i := DateIndex(daily, targetDate).value;
              && r.date == targetDate && r.city == city.name && r.country == city.country
              && (forall key :: key in r.weather <==> key in daily && i < |daily[key]|)
              && (forall key :: key in r.weather ==> r.weather[key] == daily[key][i])
  {
    match DateIndex(daily, targetDate)
    case None => JsonError(NotAvailable(targetDate))
    case Some(i) =>
      var weather := map key | key in daily && i < |daily[key]| :: daily[key][i];
      JsonForecast(city.name, city.country, targetDate, city.latitude, city.longitude, weather)
  }

  /** The JSON report of a day always echoes that day's date under `time`. */
  lemma JsonWeatherHasDate(daily: Daily, city: CityInfo, targetDate: string)
    requires FormatJson(daily, city, targetDate).JsonForecast?
    ensures FormatJson(daily, city, targetDate).weather["time"] == Str(targetDate)
  {
    var i := DateIndex(daily, targetDate).value;
    assert "time" in daily && i < |daily["time"]|;
  }

  /** What Python raises while the markdown formatter reads and formats the
      arrays: a lookup past the end of an array or of a missing key, and the
      formatting of a value of the wrong kind. */
  datatype PythonError = IndexError | KeyError(key: string) | TypeError | ValueError | AttributeError | OverflowError

  /** One bullet of the markdown report, with the values it shows. */
  datatype Section =
    | Condition(code: Value)
    | Temperature(min: Value, max: Value)
    | ApparentTemperature(min: Value, max: Value)
    | Precipitation(amount: Value)
    | PrecipitationChance(percent: Value)
    | Wind(speed: Value)
    | Humidity(min: Value, max: Value)
    | UvIndex(index: Value)
    | SunTimes(sunrise: Value, sunset: Value)

  /** `daily.get(key)` is truthy: the array exists and is not empty. */
  predicate Present(daily: Daily, key: string) {
    key in daily && |daily[key]| > 0
  }

  /** `daily[key][i]`. */
  function Item(daily: Daily, key: string, i: nat): (r: Result<Value, PythonError>)
    ensures r.Success? <==> key in daily && i < |daily[key]|
    ensures r.Success? ==> r.value == daily[key][i]
    ensures key !in daily ==> r == Failure(KeyError(key))
    ensures key in daily && i >= |daily[key]| ==> r == Failure(IndexError)
  {
    if key !in daily then Failure(KeyError(key))
    else if i < |daily[key]| then Success(daily[key][i])
    else Failure(IndexError)
  }

  /** The least integer magnitude that no IEEE 754 double reaches: 2^1024 - 2^970.
      Converting an integer at least this large to `float` rounds to
      infinity, which Python refuses with `OverflowError`. */
  const FloatOverflowBound: int := 0xFFFFFFFFFFFFFC00000000000000000000000000000000000000000000000000000000000000000000000000000000000000000000000000000000000000000000000000000000000000000000000000000000000000000000000000000000000000000000000000000000000000000000000000000000000000000000000000

  /** A value `:.1f` and `:.0f` can format: a float, or an integer that
      converts to a finite float. */
  predicate Formattable(v: Value) {
    v.Float? || (v.Int? && -FloatOverflowBound < v.i < FloatOverflowBound)
  }

  /** `f"{v:.1f}"` (or `:.0f`), which formats an integer by converting it to
      `float` first. With `compared` the value was first compared with a
      number, as `_get_uv_description` does, so `uv <= 2` raises before the
      format is reached. */
  function FormatNumber(v: Value, compared: bool): (r: Result<Value, PythonError>)
    ensures r.Success? <==> Formattable(v)
    ensures r.Success? ==> r.value == v
    ensures v.Null? ==> r == Failure(TypeError)
    ensures v.Str? ==> r == Failure(if compared then TypeError else ValueError)
    ensures v.Int? && !Formattable(v) ==> r == Failure(OverflowError)
  {
    match v
    case Float(_) => Success(v)
    case Int(n) => if -FloatOverflowBound < n < FloatOverflowBound then Success(v) else Failure(OverflowError)
    case Str(_) => if compared then Failure(TypeError) else Failure(ValueError)
    case Null => Failure(TypeError)
  }

  /** A time stamp that `split('T')[1]` can cut: a string holding a 'T'. */
  predicate IsTimestamp(v: Value) {
    v.Str? && 'T' in v.s
  }

  /** `v.split('T')[1]`. A string without 'T' splits into a single piece,
      so the `[1]` raises; anything but a string has no `split`. */
  function TimeOfDay(v: Value): (r: Result<Value, PythonError>)
    ensures r.Success? <==> IsTimestamp(v)
    ensures r.Success? ==> r.value == v
    ensures v.Str? && !IsTimestamp(v) ==> r == Failure(IndexError)
    ensures !v.Str? ==> r == Failure(AttributeError)
  {
    match v
    case Str(text) => if 'T' in text then Success(v) else Failure(IndexError)
    case _ => Failure(AttributeError)
  }

  /** A bullet read from one array and formatted as a number, shown when
      that array is present. */
  function OneValue(daily: Daily, key: string, i: nat, compared: bool, make: Value -> Section)
    : Result<seq<Section>, PythonError>
  {
    if !Present(daily, key) then Success([])
    else
      var v :- Item(daily, key, i);
      var shown :- FormatNumber(v, compared);
      Success([make(shown)])
  }

  /** A bullet read from a pair of arrays, shown when the first of them is
      present; the first is read before the second, and the second (the
      minimum) is formatted before the first. */
  function TwoValues(daily: Daily, first: string, second: string, i: nat, make: (Value, Value) -> Section)
    : Result<seq<Section>, PythonError>
  {
    if !Present(daily, first) then Success([])
    else
      var a :- Item(daily, first, i);
      var b :- Item(daily, second, i);
      var low :- FormatNumber(b, false);
      var high :- FormatNumber(a, false);
      Success([make(low, high)])
  }

  datatype MarkdownReport =
    | MarkdownError(message: string)
    | Raised(error: PythonError)
    | MarkdownForecast(city: string, country: string, date: string, sections: seq<Section>)

  /** The bullets of the report for day `i`, in the source's order, given
      that day's weather code. */
  function Sections(daily: Daily, i: nat, code: Value): Result<seq<Section>, PythonError> {
    var temperature :- TwoValues(daily, "temperature_2m_max", "temperature_2m_min", i,
                                 (min, max) => Temperature(min, max));
    var apparent :- TwoValues(daily, "apparent_temperature_max", "apparent_temperature_min", i,
                              (min, max) => ApparentTemperature(min, max));
    var precipitation :- OneValue(daily, "precipitation_sum", i, false, v => Precipitation(v));
    var chance :- OneValue(daily, "precipitation_probability_max", i, false, v => PrecipitationChance(v));
    var wind :- OneValue(daily, "windspeed_10m_max", i, false, v => Wind(v));
    var humidity :- TwoValues(daily, "relative_humidity_2m_max", "relative_humidity_2m_min", i,
                              (min, max) => Humidity(min, max));
    var uv :- OneValue(daily, "uv_index_max", i, true, v => UvIndex(v));
    var sun :-
      if Present(daily, "sunrise") && Present(daily, "sunset") then
        var rise :- Item(daily, "sunrise", i);
        var riseTime :- TimeOfDay(rise);
        var fall :- Item(daily, "sunset", i);
        var fallTime :- TimeOfDay(fall);
        Success([SunTimes(riseTime, fallTime)])
      else Success([]);
    Success([Condition(code)] + temperature + apparent + precipitation + chance + wind + humidity + uv + sun)
  }

  /** `_format_weather_markdown`: the error text when the date is missing,
      the error Python raises when an array is too short, a paired array is
      missing or a value cannot be formatted, and otherwise the bullets for
      that day. */
  function FormatMarkdown(daily: Daily, city: CityInfo, targetDate: string): (r: MarkdownReport)
    ensures r.MarkdownError? <==> Str(targetDate) !in Dates(daily)
    ensures r.MarkdownError? ==> r.message == "Error: " + NotAvailable(targetDate)
    ensures Str(targetDate) in Dates(daily) ==>
              var i := DateIndex(daily, targetDate).value;
              !("weathercode" in daily && i < |daily["weathercode"]|) ==> r == Raised(IndexError)
    ensures r.MarkdownForecast? ==>
              var i := DateIndex(daily, targetDate).value;
              && r.date == targetDate
              && |r.sections| > 0
              && r.sections[0] == Condition(daily["weathercode"][i])
  {
    match DateIndex(daily, targetDate)
    case None => MarkdownError("Error: " + NotAvailable(targetDate))
    case Some(i) =>
      var codes := if "weathercode" in daily then daily["weathercode"] else [];
      if i >= |codes| then Raised(IndexError)
      else
        match Sections(daily, i, codes[i])
        case Failure(e) => Raised(e)
        case Success(sections) => MarkdownForecast(city.name, city.country, targetDate, sections)
  }

  /** Both formatters reject exactly the same requests for a missing date. */
  lemma FormattersAgreeOnMissingDate(daily: Daily, city: CityInfo, targetDate: string)
    ensures FormatMarkdown(daily, city, targetDate).MarkdownError? <==> FormatJson(daily, city, targetDate).JsonError?
  {
  }

  /** The arrays a bullet was read from, each with the value it shows. */
  function SectionSources(s: Section): seq<(string, Value)> {
    match s
    case Condition(code) => [("weathercode", code)]
    case Temperature(min, max) => [("temperature_2m_min", min), ("temperature_2m_max", max)]
    case ApparentTemperature(min, max) => [("apparent_temperature_min", min), ("apparent_temperature_max", max)]
    case Precipitation(amount) => [("precipitation_sum", amount)]
    case PrecipitationChance(percent) => [("precipitation_probability_max", percent)]
    case Wind(speed) => [("windspeed_10m_max", speed)]
    case Humidity(min, max) => [("relative_humidity_2m_min", min), ("relative_humidity_2m_max", max)]
    case UvIndex(index) => [("uv_index_max", index)]
    case SunTimes(sunrise, sunset) => [("sunrise", sunrise), ("sunset", sunset)]
  }

  /** Every value the bullet shows is the day-`i` entry of its array. */
  predicate BulletShowsDay(daily: Daily, i: nat, s: Section) {
    forall p :: p in SectionSources(s) ==> p.0 in daily && i < |daily[p.0]| && daily[p.0][i] == p.1
  }

  predicate ShowsDay(daily: Daily, i: nat, sections: seq<Section>) {
    forall k :: 0 <= k < |sections| ==> BulletShowsDay(daily, i, sections[k])
  }

  lemma ShowsDayAppend(daily: Daily, i: nat, a: seq<Section>, b: seq<Section>)
    requires ShowsDay(daily, i, a) && ShowsDay(daily, i, b)
    ensures ShowsDay(daily, i, a + b)
  {
    forall k | 0 <= k < |a + b|
      ensures BulletShowsDay(daily, i, (a + b)[k])
    {
      if k < |a| {
        assert (a + b)[k] == a[k];
      } else {
        assert (a + b)[k] == b[k - |a|];
      }
    }
  }

  lemma OneValueShowsDay(daily: Daily, key: string, i: nat, compared: bool, make: Value -> Section)
    requires forall v :: SectionSources(make(v)) == [(key, v)]
    requires OneValue(daily, key, i, compared, make).Success?
    ensures ShowsDay(daily, i, OneValue(daily, key, i, compared, make).value)
  {
    if Present(daily, key) {
      var v := daily[key][i];
      assert SectionSources(make(v)) == [(key, v)];
    }
  }

  lemma TwoValuesShowDay(daily: Daily, first: string, second: string, i: nat, make: (Value, Value) -> Section)
    requires forall x, y :: SectionSources(make(x, y)) == [(second, x), (first, y)]
    requires TwoValues(daily, first, second, i, make).Success?
    ensures ShowsDay(daily, i, TwoValues(daily, first, second, i, make).value)
  {
    if Present(daily, first) {
      var x, y := daily[second][i], daily[first][i];
      assert SectionSources(make(x, y)) == [(second, x), (first, y)];
    }
  }

  /** The bullets only ever show values of the requested day. */
  lemma SectionsShowDay(daily: Daily, i: nat, code: Value)
    requires "weathercode" in daily && i < |daily["weathercode"]| && code == daily["weathercode"][i]
    requires Sections(daily, i, code).Success?
    ensures ShowsDay(daily, i, Sections(daily, i, code).value)
  {
    var t := TwoValues(daily, "temperature_2m_max", "temperature_2m_min", i, (min, max) => Temperature(min, max));
    var a := TwoValues(daily, "apparent_temperature_max", "apparent_temperature_min", i, (min, max) => ApparentTemperature(min, max));
    var p := OneValue(daily, "precipitation_sum", i, false, v => Precipitation(v));
    var c := OneValue(daily, "precipitation_probability_max", i, false, v => PrecipitationChance(v));
    var w := OneValue(daily, "windspeed_10m_max", i, false, v => Wind(v));
    var h := TwoValues(daily, "relative_humidity_2m_max", "relative_humidity_2m_min", i, (min, max) => Humidity(min, max));
    var u := OneValue(daily, "uv_index_max", i, true, v => UvIndex(v));
    TwoValuesShowDay(daily, "temperature_2m_max", "temperature_2m_min", i, (min, max) => Temperature(min, max));
    TwoValuesShowDay(daily, "apparent_temperature_max", "apparent_temperature_min", i, (min, max) => ApparentTemperature(min, max));
    OneValueShowsDay(daily, "precipitation_sum", i, false, v => Precipitation(v));
    OneValueShowsDay(daily, "precipitation_probability_max", i, false, v => PrecipitationChance(v));
    OneValueShowsDay(daily, "windspeed_10m_max", i, false, v => Wind(v));
    TwoValuesShowDay(daily, "relative_humidity_2m_max", "relative_humidity_2m_min", i, (min, max) => Humidity(min, max));
    OneValueShowsDay(daily, "uv_index_max", i, true, v => UvIndex(v));
    var sun := if Present(daily, "sunrise") && Present(daily, "sunset")
               then [SunTimes(daily["sunrise"][i], daily["sunset"][i])] else [];
    assert ShowsDay(daily, i, sun) by {
      if |sun| > 0 {
        assert BulletShowsDay(daily, i, sun[0]);
      }
    }
    assert ShowsDay(daily, i, [Condition(code)]) by {
      assert BulletShowsDay(daily, i, Condition(code));
    }
    var acc := [Condition(code)];
    ShowsDayAppend(daily, i, acc, t.value);
    acc := acc + t.value;
    ShowsDayAppend(daily, i, acc, a.value);
    acc := acc + a.value;
    ShowsDayAppend(daily, i, acc, p.value);
    acc := acc + p.value;
    ShowsDayAppend(daily, i, acc, c.value);
    acc := acc + c.value;
    ShowsDayAppend(daily, i, acc, w.value);
    acc := acc + w.value;
    ShowsDayAppend(daily, i, acc, h.value);
    acc := acc + h.value;
    ShowsDayAppend(daily, i, acc, u.value);
    acc := acc + u.value;
    ShowsDayAppend(daily, i, acc, sun);
    acc := acc + sun;
    assert Sections(daily, i, code).value == acc;
  }

  /** Whatever the markdown report shows is also in the JSON report of the
      same forecast, under the array it came from. */
  lemma MarkdownAgreesWithJson(daily: Daily, city: CityInfo, targetDate: string)
    requires FormatMarkdown(daily, city, targetDate).MarkdownForecast?
    ensures var md := FormatMarkdown(daily, city, targetDate);
            var json := FormatJson(daily, city, targetDate);
            && json.JsonForecast?
            && forall k, p :: 0 <= k < |md.sections| && p in SectionSources(md.sections[k]) ==>
                 p.0 in json.weather && json.weather[p.0] == p.1
  {
    var i := DateIndex(daily, targetDate).value;
    var md := FormatMarkdown(daily, city, targetDate);
    var json := FormatJson(daily, city, targetDate);
    SectionsShowDay(daily, i, daily["weathercode"][i]);
    assert md.sections == Sections(daily, i, daily["weathercode"][i]).value;
    forall k, p | 0 <= k < |md.sections| && p in SectionSources(md.sections[k])
      ensures p.0 in json.weather && json.weather[p.0] == p.1
    {
      assert BulletShowsDay(daily, i, md.sections[k]);
    }
  }

  /** The variables the markdown report formats as numbers, in its order. */
  const NumberKeys: seq<string> := [
    "temperature_2m_max", "temperature_2m_min",
    "apparent_temperature_max", "apparent_temperature_min", "precipitation_sum",
    "precipitation_probability_max", "windspeed_10m_max", "relative_humidity_2m_max",
    "relative_humidity_2m_min", "uv_index_max"]

  /** The array `key` holds a number `:.1f` can format at day `i`. */
  predicate NumberAt(daily: Daily, key: string, i: nat) {
    key in daily && i < |daily[key]| && Formattable(daily[key][i])
  }

  /** The array `key` holds a time stamp at day `i`. */
  predicate TimestampAt(daily: Daily, key: string, i: nat) {
    key in daily && i < |daily[key]| && IsTimestamp(daily[key][i])
  }

  /** Every variable the weather tools request has a well-formed value for
      day `i`: a weather code, a number for each formatted variable, and
      time stamps for sunrise and sunset. */
  predicate CompleteDay(daily: Daily, i: nat) {
    && "weathercode" in daily && i < |daily["weathercode"]|
    && (forall k :: 0 <= k < |NumberKeys| ==> NumberAt(daily, NumberKeys[k], i))
    && TimestampAt(daily, "sunrise", i) && TimestampAt(daily, "sunset", i)
  }

  /** The arrays behind one bullet can be read and formatted at day `i`
      whenever the bullet is shown: the gating array is absent or empty, or
      it and its partner (itself, for a single-value bullet) both reach `i`
      and hold numbers there. */
  predicate BulletRenderable(daily: Daily, first: string, second: string, i: nat) {
    !Present(daily, first) || (NumberAt(daily, first, i) && NumberAt(daily, second, i))
  }

  /** Sunrise and sunset can be cut at day `i` whenever they are shown. */
  predicate SunRenderable(daily: Daily, i: nat) {
    Present(daily, "sunrise") && Present(daily, "sunset") ==>
      TimestampAt(daily, "sunrise", i) && TimestampAt(daily, "sunset", i)
  }

  /** Every bullet after the condition can be read and formatted at day `i`. */
  predicate DayRenderable(daily: Daily, i: nat) {
    && BulletRenderable(daily, "temperature_2m_max", "temperature_2m_min", i)
    && BulletRenderable(daily, "apparent_temperature_max", "apparent_temperature_min", i)
    && BulletRenderable(daily, "precipitation_sum", "precipitation_sum", i)
    && BulletRenderable(daily, "precipitation_probability_max", "precipitation_probability_max", i)
    && BulletRenderable(daily, "windspeed_10m_max", "windspeed_10m_max", i)
    && BulletRenderable(daily, "relative_humidity_2m_max", "relative_humidity_2m_min", i)
    && BulletRenderable(daily, "uv_index_max", "uv_index_max", i)
    && SunRenderable(daily, i)
  }

  lemma OneValueSucceeds(daily: Daily, key: string, i: nat, compared: bool, make: Value -> Section)
    ensures OneValue(daily, key, i, compared, make).Success? <==> BulletRenderable(daily, key, key, i)
  {
  }

  lemma TwoValuesSucceed(daily: Daily, first: string, second: string, i: nat, make: (Value, Value) -> Section)
    ensures TwoValues(daily, first, second, i, make).Success? <==> BulletRenderable(daily, first, second, i)
  {
  }

  /** The bullets of day `i` can all be built exactly when the day can be
      read and formatted. */
  lemma SectionsSucceed(daily: Daily, i: nat, code: Value)
    ensures Sections(daily, i, code).Success? <==> DayRenderable(daily, i)
  {
    TwoValuesSucceed(daily, "temperature_2m_max", "temperature_2m_min", i, (min, max) => Temperature(min, max));
    TwoValuesSucceed(daily, "apparent_temperature_max", "apparent_temperature_min", i, (min, max) => ApparentTemperature(min, max));
    OneValueSucceeds(daily, "precipitation_sum", i, false, v => Precipitation(v));
    OneValueSucceeds(daily, "precipitation_probability_max", i, false, v => PrecipitationChance(v));
    OneValueSucceeds(daily, "windspeed_10m_max", i, false, v => Wind(v));
    TwoValuesSucceed(daily, "relative_humidity_2m_max", "relative_humidity_2m_min", i, (min, max) => Humidity(min, max));
    OneValueSucceeds(daily, "uv_index_max", i, true, v => UvIndex(v));
  }

  /** For a date the forecast has, the markdown formatter produces a report
      exactly when the weather code can be read and every shown bullet can
      be read and formatted at that date's index, and raises otherwise. */
  lemma MarkdownRaisesExactlyWhenNotRenderable(daily: Daily, city: CityInfo, targetDate: string)
    requires Str(targetDate) in Dates(daily)
    ensures var i := DateIndex(daily, targetDate).value;
            var r := FormatMarkdown(daily, city, targetDate);
            && (r.MarkdownForecast? <==> "weathercode" in daily && i < |daily["weathercode"]| && DayRenderable(daily, i))
            && (r.Raised? <==> !("weathercode" in daily && i < |daily["weathercode"]| && DayRenderable(daily, i)))
  {
    var i := DateIndex(daily, targetDate).value;
    if "weathercode" in daily && i < |daily["weathercode"]| {
      SectionsSucceed(daily, i, daily["weathercode"][i]);
    }
  }

  /** A complete day renders every bullet. */
  lemma CompleteDayRenderable(daily: Daily, i: nat)
    requires CompleteDay(daily, i)
    ensures DayRenderable(daily, i)
  {
    var ks := NumberKeys;
    assert NumberAt(daily, ks[0], i) && NumberAt(daily, ks[1], i);
    assert NumberAt(daily, ks[2], i) && NumberAt(daily, ks[3], i);
    assert NumberAt(daily, ks[4], i) && NumberAt(daily, ks[5], i);
    assert NumberAt(daily, ks[6], i) && NumberAt(daily, ks[7], i);
    assert NumberAt(daily, ks[8], i) && NumberAt(daily, ks[9], i);
  }

  /** A forecast that covers every requested variable for the target date
      with well-formed values gives the full report: the condition and the
      eight other bullets. */
  lemma CompleteDayGivesFullReport(daily: Daily, city: CityInfo, targetDate: string)
    requires Str(targetDate) in Dates(daily)
    requires CompleteDay(daily, DateIndex(daily, targetDate).value)
    ensures FormatMarkdown(daily, city, targetDate).MarkdownForecast?
    ensures |FormatMarkdown(daily, city, targetDate).sections| == 9
  {
    var i := DateIndex(daily, targetDate).value;
    CompleteDayRenderable(daily, i);
    SectionsSucceed(daily, i, daily["weathercode"][i]);
    var sections := Sections(daily, i, daily["weathercode"][i]);
    var ks := NumberKeys;
    assert NumberAt(daily, ks[0], i) && NumberAt(daily, ks[2], i);
    assert NumberAt(daily, ks[4], i) && NumberAt(daily, ks[5], i);
    assert NumberAt(daily, ks[6], i) && NumberAt(daily, ks[7], i);
    assert NumberAt(daily, ks[9], i);
    assert |sections.value| == 9;
  }

  /** A maximum temperature without its minimum raises `KeyError` for the
      minimum when the report is built. */
  lemma MissingMinimumRaisesKeyError(city: CityInfo)
    ensures FormatMarkdown(map["time" := [Str("d")], "weathercode" := [Int(0)], "temperature_2m_max" := [Int(1)]], city, "d")
            == Raised(KeyError("temperature_2m_min"))
  {
    var daily := map["time" := [Str("d")], "weathercode" := [Int(0)], "temperature_2m_max" := [Int(1)]];
    assert Dates(daily)[0] == Str("d");
    assert DateIndex(daily, "d") == Some(0);
    assert Item(daily, "temperature_2m_min", 0) == Failure(KeyError("temperature_2m_min"));
  }

  /** A `null` precipitation raises `TypeError` when it is formatted. */
  lemma NullPrecipitationRaisesTypeError(city: CityInfo)
    ensures FormatMarkdown(map["time" := [Str("d")], "weathercode" := [Int(0)], "precipitation_sum" := [Null]], city, "d")
            == Raised(TypeError)
  {
    var daily := map["time" := [Str("d")], "weathercode" := [Int(0)], "precipitation_sum" := [Null]];
    assert Dates(daily)[0] == Str("d");
    assert DateIndex(daily, "d") == Some(0);
    assert OneValue(daily, "precipitation_sum", 0, false, v => Precipitation(v)) == Failure(TypeError);
  }

  /** A string minimum temperature raises `ValueError` when it is formatted. */
  lemma StringTemperatureRaisesValueError(city: CityInfo)
    ensures FormatMarkdown(map["time" := [Str("d")], "weathercode" := [Int(0)],
                               "temperature_2m_max" := [Int(20)], "temperature_2m_min" := [Str("cold")]], city, "d")
            == Raised(ValueError)
  {
    var daily := map["time" := [Str("d")], "weathercode" := [Int(0)],
                     "temperature_2m_max" := [Int(20)], "temperature_2m_min" := [Str("cold")]];
    assert Dates(daily)[0] == Str("d");
    assert DateIndex(daily, "d") == Some(0);
    assert TwoValues(daily, "temperature_2m_max", "temperature_2m_min", 0, (min, max) => Temperature(min, max))
        == Failure(ValueError);
  }

  /** A string UV index raises `TypeError` in the comparison with 2. */
  lemma StringUvRaisesTypeError(city: CityInfo)
    ensures FormatMarkdown(map["time" := [Str("d")], "weathercode" := [Int(0)], "uv_index_max" := [Str("5")]], city, "d")
            == Raised(TypeError)
  {
    var daily := map["time" := [Str("d")], "weathercode" := [Int(0)], "uv_index_max" := [Str("5")]];
    assert Dates(daily)[0] == Str("d");
    assert DateIndex(daily, "d") == Some(0);
    assert OneValue(daily, "uv_index_max", 0, true, v => UvIndex(v)) == Failure(TypeError);
  }

  /** A sunrise without a 'T' raises `IndexError` at `split('T')[1]`. */
  lemma SunriseWithoutTimeRaisesIndexError(city: CityInfo)
    ensures FormatMarkdown(map["time" := [Str("d")], "weathercode" := [Int(0)],
                               "sunrise" := [Str("0600")], "sunset" := [Str("dT18:00")]], city, "d")
            == Raised(IndexError)
  {
    var daily := map["time" := [Str("d")], "weathercode" := [Int(0)],
                     "sunrise" := [Str("0600")], "sunset" := [Str("dT18:00")]];
    assert Dates(daily)[0] == Str("d");
    assert DateIndex(daily, "d") == Some(0);
    assert 'T' !in "0600";
    assert TimeOfDay(Str("0600")) == Failure(IndexError);
  }

  /** A `null` sunrise has no `split` and raises `AttributeError`. */
  lemma NullSunriseRaisesAttributeError(city: CityInfo)
    ensures FormatMarkdown(map["time" := [Str("d")], "weathercode" := [Int(0)],
                               "sunrise" := [Null], "sunset" := [Str("dT18:00")]], city, "d")
            == Raised(AttributeError)
  {
    var daily := map["time" := [Str("d")], "weathercode" := [Int(0)],
                     "sunrise" := [Null], "sunset" := [Str("dT18:00")]];
    assert Dates(daily)[0] == Str("d");
    assert DateIndex(daily, "d") == Some(0);
    assert TimeOfDay(Null) == Failure(AttributeError);
  }

  /** An integer precipitation beyond the range of `float` raises
      `OverflowError` when it is formatted. */
  lemma HugePrecipitationRaisesOverflowError(city: CityInfo)
    ensures FormatMarkdown(map["time" := [Str("d")], "weathercode" := [Int(0)],
                               "precipitation_sum" := [Int(FloatOverflowBound)]], city, "d")
            == Raised(OverflowError)
  {
    var daily := map["time" := [Str("d")], "weathercode" := [Int(0)], "precipitation_sum" := [Int(FloatOverflowBound)]];
    assert Dates(daily)[0] == Str("d");
    assert DateIndex(daily, "d") == Some(0);
    assert OneValue(daily, "precipitation_sum", 0, false, v => Precipitation(v)) == Failure(OverflowError);
  }
}

=== FILE: weather_inputs.dfy ===
/** Input validation of the two weather tools (`WeatherQueryInput` and
    `WeekdayQueryInput` in weather.py). The models strip surrounding
    whitespace from strings, then check the length bounds of each field,
    then run the field's own validator; every failing field is reported,
    in declaration order. */
module WeatherInputs {

  import opened Wrappers
  import opened Text
  import opened Weekday

  datatype ResponseFormat = Markdown | Json

  /** One reported problem with one field. */
  datatype FieldError =
    | TooShort(field: string, minLength: nat)
    | TooLong(field: string, maxLength: nat)
    | OutOfRange(field: string, low: int, high: int)
    | Rejected(field: string, message: string)

  const CityMaxLength: nat := 100
  const WeekdayMaxLength: nat := 20
  const MaxDaysLater: nat := 16

  const EmptyCityMessage: string := "City name cannot be empty"

  /** `validate_city`: the stripped name, unless it is blank. */
  function CityValidator(v: string): (r: Result<string, string>)
    ensures r.Success? <==> !AllSpace(v)
    ensures r.Success? ==> r.value == Strip(v) && |r.value| > 0
    ensures r.Failure? ==> r.error == EmptyCityMessage
  {
    StripEmptyIffAllSpace(v);
    if |Strip(v)| == 0 then Failure(EmptyCityMessage) else Success(Strip(v))
  }

  /** `"Invalid weekday. Must be one of: " + ", ".join(valid_days)`. */
  function InvalidWeekdayMessage(): string {
    "Invalid weekday. Must be one of: " + Join(Weekdays, ", ")
  }

  /** `validate_weekday`: accepts a day name in any ASCII capitalisation,
      with surrounding whitespace, and returns it stripped with its case kept. */
  function WeekdayValidator(v: string): (r: Result<string, string>)
    ensures r.Success? <==> Lower(Strip(v)) in Weekdays
    ensures r.Success? ==> r.value == Strip(v)
    ensures r.Failure? ==> r.error == InvalidWeekdayMessage()
  {
    if Lower(Strip(v)) !in Weekdays then Failure(InvalidWeekdayMessage()) else Success(Strip(v))
  }

  /** A string field with `str_strip_whitespace`, `min_length=1` and the
      given `max_length`: the value with its `White_Space` trimmed, or the
      bound it breaks. The bounds are checked on that trimmed value. */
  function ConstrainedString(field: string, raw: string, maxLength: nat): (r: Result<string, FieldError>)
    ensures r.Success? <==> 1 <= |Trim(raw)| <= maxLength
    ensures r.Success? ==> r.value == Trim(raw)
    ensures |Trim(raw)| == 0 ==> r == Failure(TooShort(field, 1))
    ensures |Trim(raw)| > maxLength ==> r == Failure(TooLong(field, maxLength))
  {
    var s := Trim(raw);
    if |s| < 1 then Failure(TooShort(field, 1))
    else if |s| > maxLength then Failure(TooLong(field, maxLength))
    else Success(s)
  }

  /** The errors the `city` field reports: its length bounds on the trimmed
      value, then `validate_city`, which still rejects a value made only of
      characters that `isspace` knows and the trimming does not. */
  function CityErrors(city: string): (errors: seq<FieldError>)
    ensures errors == [] <==> 1 <= |Trim(city)| <= CityMaxLength && !AllSpace(city)
    ensures 1 <= |Trim(city)| <= CityMaxLength && AllSpace(city) ==> errors == [Rejected("city", EmptyCityMessage)]
    ensures |Trim(city)| == 0 ==> errors == [TooShort("city", 1)]
    ensures |Trim(city)| > CityMaxLength ==> errors == [TooLong("city", CityMaxLength)]
  {
    TrimKeepsBlankness(city);
    match ConstrainedString("city", city, CityMaxLength)
    case Failure(e) => [e]
    case Success(s) =>
      match CityValidator(s)
      case Failure(message) => [Rejected("city", message)]
      case Success(_) => []
  }

  /** The errors the `target_weekday` field reports: its length bounds on the
      trimmed value, then `validate_weekday`. */
  function WeekdayErrors(targetWeekday: string): (errors: seq<FieldError>)
    ensures errors == [] <==> 1 <= |Trim(targetWeekday)| <= WeekdayMaxLength && Lower(Strip(targetWeekday)) in Weekdays
    ensures 1 <= |Trim(targetWeekday)| <= WeekdayMaxLength && Lower(Strip(targetWeekday)) !in Weekdays
            ==> errors == [Rejected("target_weekday", InvalidWeekdayMessage())]
    ensures |Trim(targetWeekday)| == 0 ==> errors == [TooShort("target_weekday", 1)]
    ensures |Trim(targetWeekday)| > WeekdayMaxLength ==> errors == [TooLong("target_weekday", WeekdayMaxLength)]
  {
    StripAfterTrim(targetWeekday);
    match ConstrainedString("target_weekday", targetWeekday, WeekdayMaxLength)
    case Failure(e) => [e]
    case Success(s) =>
      match WeekdayValidator(s)
      case Failure(message) => [Rejected("target_weekday", message)]
      case Success(_) => []
  }

  /** A city made of one information separator passes the length bound,
      since the trimming keeps it, and is then refused by `validate_city`. */
  lemma SeparatorCityIsEmpty()
    ensures CityErrors("\U{1C}") == [Rejected("city", EmptyCityMessage)]
  {
    assert AllSpace("\U{1C}") by {
      assert IsSpace("\U{1C}"[0]);
    }
  }

  datatype WeatherQuery = WeatherQuery(city: string, daysLater: int, format: ResponseFormat)

  /** Building `WeatherQueryInput`: the city must be at most 100 characters
      once trimmed and not blank, `days_later` within 0..16; the city is
      stored stripped and the format defaults to markdown. */
  function ParseWeatherQuery(city: string, daysLater: int, format: Option<ResponseFormat>)
    : (r: Result<WeatherQuery, seq<FieldError>>)
    ensures r.Success? <==>
              1 <= |Trim(city)| <= CityMaxLength && !AllSpace(city) && 0 <= daysLater <= MaxDaysLater
    ensures r.Success? ==> r.value == WeatherQuery(Strip(city), daysLater, format.ValueOr(Markdown))
    ensures r.Failure? ==> |r.error| > 0 && |CityErrors(city)| <= |r.error| && r.error[..|CityErrors(city)|] == CityErrors(city)
    ensures r.Failure? ==>
              r.error == CityErrors(city) + (if 0 <= daysLater <= MaxDaysLater then [] else [OutOfRange("days_later", 0, MaxDaysLater)])
    ensures r.Failure? && !(0 <= daysLater <= MaxDaysLater)
            ==> r.error[|r.error| - 1] == OutOfRange("days_later", 0, MaxDaysLater)
  {
    var dayErrors := if 0 <= daysLater <= MaxDaysLater then [] else [OutOfRange("days_later", 0, MaxDaysLater)];
    var errors := CityErrors(city) + dayErrors;
    if |errors| > 0 then Failure(errors)
    else
      StripAfterTrim(city);
      Success(WeatherQuery(CityValidator(Trim(city)).value, daysLater, format.ValueOr(Markdown)))
  }

  /** A city of 100 letters followed by an information separator is too long:
      the trimming keeps the separator, so the bound sees 101 characters. */
  lemma SeparatorCountsTowardCityLength()
    ensures ParseWeatherQuery(seq(100, _ => 'A') + "\U{1F}", 1, None).Failure?
  {
    var city := seq(100, _ => 'A') + "\U{1F}";
    assert !IsWhiteSpace(city[0]) && !IsWhiteSpace(city[|city| - 1]);
    assert Trim(city) == city;
  }

  datatype WeekdayQuery = WeekdayQuery(city: string, targetWeekday: string, format: ResponseFormat)

  /** Building `WeekdayQueryInput`: the city as above, and one of the seven
      day names in any ASCII capitalisation, at most 20 characters once
      trimmed; both are stored stripped. */
  function ParseWeekdayQuery(city: string, targetWeekday: string, format: Option<ResponseFormat>)
    : (r: Result<WeekdayQuery, seq<FieldError>>)
    ensures r.Success? <==>
              && 1 <= |Trim(city)| <= CityMaxLength && !AllSpace(city)
              && 1 <= |Trim(targetWeekday)| <= WeekdayMaxLength && Lower(Strip(targetWeekday)) in Weekdays
    ensures r.Success? ==> r.value == WeekdayQuery(Strip(city), Strip(targetWeekday), format.ValueOr(Markdown))
    ensures r.Failure? ==> r.error == CityErrors(city) + WeekdayErrors(targetWeekday) && |r.error| > 0
  {
    var errors := CityErrors(city) + WeekdayErrors(targetWeekday);
    if |errors| > 0 then Failure(errors)
    else
      ValidatedFields(city, targetWeekday);
      Success(WeekdayQuery(CityValidator(Trim(city)).value, WeekdayValidator(Trim(targetWeekday)).value, format.ValueOr(Markdown)))
  }

  /** Fields without errors pass their validators, which store them stripped. */
  lemma ValidatedFields(city: string, targetWeekday: string)
    requires CityErrors(city) == [] && WeekdayErrors(targetWeekday) == []
    ensures CityValidator(Trim(city)) == Success(Strip(city))
    ensures WeekdayValidator(Trim(targetWeekday)) == Success(Strip(targetWeekday))
  {
    StripAfterTrim(city);
    StripAfterTrim(targetWeekday);
    TrimKeepsBlankness(city);
  }

  /** `validate_weekday` alone accepts a day name followed by fifteen
      information separators: `strip()` removes them. */
  lemma PaddedWeekdayPassesValidator()
    ensures WeekdayValidator("monday" + seq(15, _ => '\U{1C}')).Success?
  {
    PaddedMondayStrips(seq(15, _ => '\U{1C}'));
    MondayIsWeekday();
  }

  lemma PaddedMondayStrips(pad: string)
    requires forall k :: 0 <= k < |pad| ==> pad[k] == '\U{1C}'
    ensures Strip("monday" + pad) == "monday"
  {
    SeparatorsAreSpace(pad);
    PaddedStrip("monday", pad);
  }

  lemma MondayIsWeekday()
    ensures Lower("monday") in Weekdays
  {
    MondayIsLowerCase();
    assert Weekdays[0] == "monday";
  }

  lemma PaddedStrip(m: string, pad: string)
    requires AllSpace(pad) && Trimmed(m)
    ensures Strip(m + pad) == m
  {
    assert m + pad == "" + m + pad;
    StripOfPadded("", m, pad);
  }

  lemma SeparatorsAreSpace(pad: string)
    requires forall k :: 0 <= k < |pad| ==> pad[k] == '\U{1C}'
    ensures AllSpace(pad)
  {
    assert IsSpace('\U{1C}');
  }

  lemma MondayIsLowerCase()
    ensures Lower("monday") == "monday"
  {
    assert forall k :: 0 <= k < 6 ==> Lower("monday")[k] == "monday"[k];
  }

  /** The same value is refused by the `target_weekday` field, because the trimming
      keeps the separators and the value is then 21 characters long. */
  lemma PaddedWeekdayIsTooLong()
    ensures ParseWeekdayQuery("Paris", "monday" + seq(15, _ => '\U{1C}'), None).Failure?
  {
    var w := "monday" + seq(15, _ => '\U{1C}');
    assert !IsWhiteSpace(w[0]) && !IsWhiteSpace(w[|w| - 1]);
    assert Trim(w) == w;
  }

  /** A weekday that passed validation is always found by the tool's
      `weekdays.index(target_weekday.lower())`, so that lookup cannot fail. */
  lemma ValidatedWeekdayHasIndex(city: string, targetWeekday: string, format: Option<ResponseFormat>)
    requires ParseWeekdayQuery(city, targetWeekday, format).Success?
    ensures WeekdayIndex(Lower(ParseWeekdayQuery(city, targetWeekday, format).value.targetWeekday)).Some?
  {
  }
}

=== FILE: weekday.dfy ===
/** The "next occurrence of a weekday" arithmetic of
    `weather_query_by_weekday` in weather.py. Today's weekday comes from
    the clock in the source and is a parameter here (Monday = 0). */
module Weekday {

  import opened Wrappers

  /** The day names the weather tools accept, lower-case, Monday first. */
  const Weekdays: seq<string> := ["monday", "tuesday", "wednesday", "thursday", "friday", "saturday", "sunday"]

  /** `weekdays.index(name)`: the position of `name` in `Weekdays`, or
      `None` where Python raises `ValueError`. */
  function WeekdayIndex(name: string): (r: Option<nat>)
    ensures r.None? <==> name !in Weekdays
    ensures r.Some? ==> r.value < 7 && Weekdays[r.value] == name
  {
    if name == "monday" then Some(0)
    else if name == "tuesday" then Some(1)
    else if name == "wednesday" then Some(2)
    else if name == "thursday" then Some(3)
    else if name == "friday" then Some(4)
    else if name == "saturday" then Some(5)
    else if name == "sunday" then Some(6)
    else None
  }

  /** The weekday `k` days after weekday `current`. */
  function WeekdayAfter(current: nat, k: nat): nat {
    (current + k) % 7
  }

  /** `(target_index - current_weekday) % 7`, replaced by 7 when it is 0:
      the number of days until the next `target` strictly after today.
      Python's `%` with a positive divisor never returns a negative value,
      and neither does Dafny's. */
  function DaysUntilTarget(current: nat, target: nat): (d: nat)
    requires current < 7 && target < 7
    ensures 1 <= d <= 7
    ensures d == 7 <==> current == target
    ensures WeekdayAfter(current, d) == target
    ensures forall k :: 1 <= k < d ==> WeekdayAfter(current, k) != target
  {
    var d := (target - current) % 7;
    if d == 0 then 7 else d
  }
}

=== FILE: wrappers.dfy ===
/** The two wrapper types every module shares. `Option` stands for a Python
    value that may be `None`; `Result` stands for a call that either returns
    a value or raises, with the raised error as data. */
module Wrappers {

  datatype Option<+T> = None | Some(value: T) {

    /** `value if value is not None else fallback`. */
    function ValueOr(fallback: T): T {
      if Some? then value else fallback
    }
  }

  /** A `Result` can be unwrapped with `:-`, which hands an error on to the
      caller unchanged, the way an uncaught exception propagates. */
  datatype Result<+R, +E> = Success(value: R) | Failure(error: E) {

    predicate IsFailure() {
      Failure?
    }

    function PropagateFailure<U>(): Result<U, E>
      requires Failure?
    {
      Failure(error)
    }

    function Extract(): R
      requires Success?
    {
      value
    }
  }
}
